=== FILE: README.md ===
# Baidu AIP Java SDK: the authentication core, in Dafny

This project models the authentication layer that every endpoint client of
the Baidu AI Platform Java SDK shares, and proves properties of the model.
The layer has four parts.

- **The client's authentication state machine** (`AuthState`, `BaseClient`).
  - `AuthState.transfer` moves between five states: UNKNOWN, AIP_AUTH_OK,
    TRUE_AIP_USER, POSSIBLE_CLOUD_USER and TRUE_CLOUD_USER. It keeps the
    `isBceKey` and `isAuthorized` flags in step with the state.
  - `needAuth` decides when a new OAuth token is needed: one day before the
    current one expires.
  - `getAccessToken` feeds the OAuth reply into the machine.
  - `preOperation` and `postOperation` complete a request. A developer user
    gets an `access_token` parameter. A cloud (BCE) user gets signed headers.
  - `requestServer` classifies the server reply. While the client is only
    possibly a cloud user, error code 14 in the reply settles the question.
- **The `bce-auth-v1` signer** (`CloudAuth`). It builds the canonical URI,
  the canonical query and the canonical headers, joins them with the method
  into the canonical request, and applies HMAC-SHA256 twice.
- **The string utilities** the signer uses: `Util.uriEncode` (percent
  encoding per section 2.1 of RFC 3986, keeping the unreserved set of section
  2.3), `Util.mkString`, `Util.isLiteral`, `Util.getGeneralError`, and
  `SignUtil.encodeHex`, `hmacSha256` and `md5`.
- **The request serialisers**: `AipRequest` (constructor defaults, the
  setters, the FORM_KV body and the parameter string), and the JSON builders
  of `MatchRequest` and `FaceVerifyRequest`.

## How the model is built

- Every mutable Java object is an immutable datatype. Each mutating call
  returns the updated value.
- A `java.util.HashMap` is a sequence of entries, and the sequence order is
  its iteration order. `HashMaps.Put` replaces a present key in place and
  appends a new one, so a map the model builds iterates in insertion order.
  That is one of the orders Java permits; a real HashMap usually iterates
  differently. Only the FORM_KV body (`Http.BodyStr`) and the parameter
  string (`Http.ParamStr`) depend on the order. The canonical forms the
  signer builds are proved to be the same for every order of the same
  entries.
- A nullable Java string is an `Option<string>`.
- A Java exception that the source catches or lets escape is an explicit
  outcome:
  - `sign` returns `None` for anything thrown inside its try block.
  - `postOperation` returns `Failure(NullPointerException)`.
  - `getAccessToken` returns an `Outcome` that records whether a
    JSONException escaped, and which fields had already been set by then.
    The OAuth reply is one of three cases: null, a body that is not a JSON
    object (the exception escapes before any transfer), or the parsed
    object.
- HMAC-SHA256, MD5 and `String.getBytes(charset)` are function-valued fields
  of a `Platform` record, left uninterpreted. The model does state two
  things about them:
  - an empty HMAC key always fails, since `SecretKeySpec` rejects it;
  - a result is always rendered by the concrete `encodeHex`.
- The OAuth reply, the clock (milliseconds), the `x-bce-date` timestamp, the
  HTTP status and the reply body are inputs.
- The slash rule follows the code: `getCanonicalUri` encodes the path with
  `encodeSlash=false`, so '/' stays literal. The query and header keys and
  values are encoded with `encodeSlash=true`, so '/' becomes `%2F`.
- org.json's `put(key, null)` removes the key. So `toJsonObject` of both face
  requests holds a key exactly when its field is non-null. That includes
  `image` and `image_type`: they are always written, but vanish when null.
- `Util.uriEncode` is modelled as written:
  1. encode every byte, `/` included;
  2. replace `"%2F"` by `"/"` when slashes are kept.

  It is proved equal to the per-byte rule that keeps `/` directly.

One behaviour is worth knowing, and is proved as written
(`BaseClient.InterruptedGrantSkipsScopeCheck`):

- Suppose an OAuth reply has an `access_token` but a malformed `expires_in`
  or `scope`.
- Then `getAccessToken` has already applied its first `transfer(true)` when
  the JSONException escapes. The client is left in AIP_AUTH_OK.
- The next well-formed grant then applies `transfer(true)` in that state. The
  client becomes a developer user whatever the grant's scopes are.

## Model

| member | source | states |
|---|---|---|
| AuthState.Transfer | src/main/java/com/baidu/aip/client/BaseClient.java:72-116 | the new state is the reference transition table `Next`; TRUE_AIP_USER and TRUE_CLOUD_USER leave the machine and both flags unchanged; leaving any other state sets isBceKey exactly for the two cloud states; isAuthorized never drops, and only rises on entering TRUE_AIP_USER |
| AuthState.InitialInv | src/main/java/com/baidu/aip/client/BaseClient.java:122-130 | a new client satisfies the flag invariant and is not yet in a terminal state |
| AuthState.TransferPreservesInv | src/main/java/com/baidu/aip/client/BaseClient.java:72-116 | every transfer keeps the invariant: isBceKey iff the state is a cloud state, isAuthorized iff the state is TRUE_AIP_USER |
| AuthState.TerminalIsAbsorbing | src/main/java/com/baidu/aip/client/BaseClient.java:97-112 | from either terminal state no signal changes anything |
| AuthState.NeverUnknownAgain | src/main/java/com/baidu/aip/client/BaseClient.java:72-116 | no transfer leads to UNKNOWN |
| AuthState.TransferProgresses | src/main/java/com/baidu/aip/client/BaseClient.java:72-116 | every transfer out of a non-terminal state strictly lowers the distance to a terminal state |
| AuthState.TransferAllConverges | src/main/java/com/baidu/aip/client/BaseClient.java:72-116 | along any run of signals the invariant holds and UNKNOWN is never re-entered; once the run is as long as the distance (three from UNKNOWN) the machine is terminal |
| AuthState.Paths | src/main/java/com/baidu/aip/client/BaseClient.java:72-116 | the two developer paths (true,true and true,false,false) and the two cloud paths (true,false,true and false) from a new client |
| BaseClient.NewClient | src/main/java/com/baidu/aip/client/BaseClient.java:122-130 | the constructor stores the keys, sets no token and no expiry date, state UNKNOWN, both flags false |
| BaseClient.NewClientInv | src/main/java/com/baidu/aip/client/BaseClient.java:122-130 | a new client satisfies the client invariant (flags agree with the state; a client holding the OAuth identity holds a token and an expiry) |
| BaseClient.NeedAuth | src/main/java/com/baidu/aip/client/BaseClient.java:241-248 | never for a cloud key; always when not authorised; with a known expiry date, exactly when less than one day is left; never when authorised without an expiry date, since after(null) is false |
| BaseClient.AnyRight | src/main/java/com/baidu/aip/client/BaseClient.java:216-224 | the loop with break finds a right iff some scope word is in the access-right list |
| BaseClient.GetAccessToken | src/main/java/com/baidu/aip/client/BaseClient.java:192-234 | nothing changes when no token is needed or the reply is null; a body that is not a JSON object throws before any transfer, with the client unchanged; a well-formed grant stores the token, sets the expiry to now plus expires_in seconds, and applies transfer(true) then transfer(hasRight); a reply with only an error code applies transfer(false); a reply with neither changes nothing; a malformed grant throws after the first transfer, with the keys kept |
| BaseClient.UnparsableReplyEscapes | src/main/java/com/baidu/aip/client/BaseClient.java:199 | an OAuth body that is not a JSON object throws out of getAccessToken and preOperation with the client and the request unchanged |
| BaseClient.FirstTokenFetch | src/main/java/com/baidu/aip/client/BaseClient.java:204-233 | from a new client, a grant with an access right gives TRUE_AIP_USER, a grant without one gives POSSIBLE_CLOUD_USER, and an error reply gives TRUE_CLOUD_USER with isBceKey set |
| BaseClient.GetAccessTokenPreservesInv | src/main/java/com/baidu/aip/client/BaseClient.java:192-234 | a token fetch that does not throw keeps the client invariant |
| BaseClient.RefreshOneDayBeforeExpiry | src/main/java/com/baidu/aip/client/BaseClient.java:192-248 | after a grant that makes a developer user, a new token is needed at time t exactly when t is later than the expiry minus one day |
| BaseClient.InterruptedGrantSkipsScopeCheck | src/main/java/com/baidu/aip/client/BaseClient.java:204-225 | a grant whose expires_in is missing throws and leaves AIP_AUTH_OK; the next grant with the scope "none" then gives TRUE_AIP_USER, while the same grant on a new client gives POSSIBLE_CLOUD_USER |
| BaseClient.PreOperation | src/main/java/com/baidu/aip/client/BaseClient.java:253-262 | fetches a token first when needed; then sets the method to POST and the Content-Type and accept headers, leaving every other header; a throwing fetch leaves the request as it was |
| BaseClient.AddBodyHeaders | src/main/java/com/baidu/aip/client/BaseClient.java:273-282 | Content-Length is the byte length of the body in the content encoding, and is not set when the encoding is unsupported; Content-MD5 is the body's md5, null on failure; no other header changes |
| BaseClient.AddSignature | src/main/java/com/baidu/aip/client/BaseClient.java:284-287 | sets Host and x-bce-date, then an Authorization header equal to the signature of the request as finally sent; no other header changes |
| BaseClient.PostOperation | src/main/java/com/baidu/aip/client/BaseClient.java:268-293 | a developer user's request gets aipSdk=java and its access token, and nothing else changes; a cloud user's request fails exactly when its content encoding or its URI is null, and otherwise gets aipSdk=java, then the body headers, then the signature headers; the header and parameter shape this composition yields is proved by BaseClient.CloudRequestShape |
| BaseClient.CloudRequestShape | src/main/java/com/baidu/aip/client/BaseClient.java:269-288 | after the cloud branch: aipSdk is java, every other parameter is as before, all five headers hold their values, all other headers and fields are untouched, and Authorization is the signature of the final request |
| BaseClient.CloudKeepsParam | src/main/java/com/baidu/aip/client/BaseClient.java:269-288 | the cloud branch adds no parameter but aipSdk; in particular it adds no access_token |
| BaseClient.CloudSignsRequest | src/main/java/com/baidu/aip/client/BaseClient.java:285-287 | the cloud branch always attaches an Authorization header |
| BaseClient.Md5FailureVoidsSignature | src/main/java/com/baidu/aip/client/BaseClient.java:282-287 | when the body digest cannot be computed, Content-MD5 holds null, and since it is a signed header the Authorization header holds null too |
| BaseClient.RequestServer | src/main/java/com/baidu/aip/client/BaseClient.java:300-331 | a status other than 200 or an empty body gives the SDK108 error; an unparsable body gives error -1 with the body as message; only POSSIBLE_CLOUD_USER changes state: no error code or a code other than 14 confirms the cloud user and returns the reply, code 14 makes a developer user and returns error 6, and a code getInt cannot read (neither an integer nor an int-range decimal string) gives error -1 with the state unchanged; in every other state the reply is returned as is |
| BaseClient.RequestServerPreservesInv | src/main/java/com/baidu/aip/client/BaseClient.java:300-331 | every exchange keeps the client invariant |
| BaseClient.PossibleCloudUserSettles | src/main/java/com/baidu/aip/client/BaseClient.java:305-321 | the first parsable reply whose error code is absent or an integer makes a possible cloud user terminal, with isBceKey set iff the code is not 14 |
| BaseClient.StringCodeRefusesCloudKey | src/main/java/com/baidu/aip/client/BaseClient.java:305-321 | a reply whose error_code is the string "14" is read by getInt as 14, so a possible cloud user becomes a developer user and the caller gets error 6 |
| BaseClient.SpeechGate | src/main/java/com/baidu/aip/speech/AipSpeech.java:49-55 | a call is refused with error 6 exactly when the client is in a cloud state |
| BaseClient.DeveloperUserCall | src/main/java/com/baidu/aip/client/BaseClient.java:253-292 | a new client granted brain_all_scope becomes a developer user, passes the speech gate, and its request carries the granted token |
| BaseClient.GrantedClient | src/main/java/com/baidu/aip/client/BaseClient.java:204-225 | a grant with brain_all_scope authorises a new client, with isBceKey clear, and stores the token |
| BaseClient.SingleRight | src/main/java/com/baidu/aip/client/BaseClient.java:216-224 | a scope that is one access right grants access |
| BaseClient.CloudUserCall | src/main/java/com/baidu/aip/client/BaseClient.java:253-293 | a new client refused by the OAuth server becomes a cloud user and fails the speech gate; its request, when it has an encoding and a URI, is signed and gains no access_token |
| BaseClient.RefusedClient | src/main/java/com/baidu/aip/client/BaseClient.java:230-262 | an OAuth reply with an error code and no token makes a new client a cloud user; preOperation changes only the method and the headers |
| BaseClient.SignedPost | src/main/java/com/baidu/aip/client/BaseClient.java:268-288 | for a cloud user, a request with an encoding and a URI always succeeds, gets an Authorization header, and has an access_token parameter only if it had one before |
| CloudAuth.AuthStringPrefixExpiry | src/main/java/com/baidu/aip/auth/CloudAuth.java:40-42 | the authorization prefix is "bce-auth-v1/" + ak + "/" + timestamp + "/1800": the expiry constant rendered with %d |
| CloudAuth.CanonicalUri | src/main/java/com/baidu/aip/auth/CloudAuth.java:72-77 | null exactly for a null path; otherwise starts with '/' and is the slash-keeping encoding of the path with '/' prepended when missing |
| CloudAuth.WithLeadingSlash | src/main/java/com/baidu/aip/auth/CloudAuth.java:73-75 | the path is unchanged iff it starts with '/', else it is '/' followed by the path |
| CloudAuth.Collect | src/main/java/com/baidu/aip/auth/CloudAuth.java:84-92 | the TreeSet loop fails exactly when a selected entry is null; otherwise it holds the previous tokens plus the tokens of the selected entries, and stays strictly sorted |
| CloudAuth.CanonicalShape | src/main/java/com/baidu/aip/auth/CloudAuth.java:79-120 | null iff a selected value is null; "" when nothing is selected; otherwise splitting on the separator gives exactly the contributed tokens, strictly ascending |
| CloudAuth.CanonicalOrderIndependent | src/main/java/com/baidu/aip/auth/CloudAuth.java:84-119 | two maps holding the same entries in any order canonicalise alike |
| CloudAuth.UnselectedIgnored | src/main/java/com/baidu/aip/auth/CloudAuth.java:86-113 | an entry whose key is filtered out changes nothing |
| CloudAuth.PutUnselected | src/main/java/com/baidu/aip/auth/CloudAuth.java:86-113 | putting any value under a filtered-out key, present or not, changes nothing |
| CloudAuth.NoSeparatorInTokens | src/main/java/com/baidu/aip/auth/CloudAuth.java:87-115 | no query token holds '&' and no header token holds a newline, because the encoder escapes both |
| CloudAuth.CanonicalQuery | src/main/java/com/baidu/aip/auth/CloudAuth.java:79-95 | null (the loop throws) exactly when a parameter not named authorization holds null; the shape of the non-null result is CloudAuth.CanonicalQueryShape |
| CloudAuth.CanonicalQueryShape | src/main/java/com/baidu/aip/auth/CloudAuth.java:79-95 | the query's '&'-separated parts are exactly the encoded k=v tokens of the parameters not named authorization, strictly ascending; "" when there are none |
| CloudAuth.QueryIgnoresAuthorization | src/main/java/com/baidu/aip/auth/CloudAuth.java:86-90 | a parameter named authorization in any letter case does not change the query |
| CloudAuth.QueryOrderIndependent | src/main/java/com/baidu/aip/auth/CloudAuth.java:84-93 | the query does not depend on the parameter map's iteration order |
| CloudAuth.CanonicalHeaders | src/main/java/com/baidu/aip/auth/CloudAuth.java:105-120 | null (the loop throws) exactly when an allow-listed or x-bce- header holds null; the shape of the non-null result is CloudAuth.CanonicalHeadersShape |
| CloudAuth.CanonicalHeadersShape | src/main/java/com/baidu/aip/auth/CloudAuth.java:105-120 | the header lines are exactly the encoded name:trimmed-value tokens of the allow-listed and x-bce- headers, strictly ascending; "" when there are none |
| CloudAuth.HeadersIgnoreUnlisted | src/main/java/com/baidu/aip/auth/CloudAuth.java:111-116 | a header outside the allow-list and the x-bce- prefix does not change the canonical headers |
| CloudAuth.XCustomNotSigned | src/main/java/com/baidu/aip/auth/CloudAuth.java:111-116 | an X-Custom header never appears in the canonical headers |
| CloudAuth.UnlistedHeaderName | src/main/java/com/baidu/aip/auth/CloudAuth.java:111-113 | a name with no blank ends, not starting with x, and whose length differs from every listed name's is not signed |
| CloudAuth.UnlistedCloudHeaderName | src/main/java/com/baidu/aip/auth/CloudAuth.java:111-113 | a name with no blank ends, whose third letter is not b, and whose length differs from every listed name's is not signed |
| CloudAuth.AuthorizationNotSigned | src/main/java/com/baidu/aip/auth/CloudAuth.java:111-116 | putting an Authorization header does not change the canonical headers |
| CloudAuth.HeadersOrderIndependent | src/main/java/com/baidu/aip/auth/CloudAuth.java:109-119 | the canonical headers do not depend on the header map's iteration order |
| CloudAuth.CanonicalRequestOf | src/main/java/com/baidu/aip/auth/CloudAuth.java:48-61 | the canonical request exists exactly when the path is non-null and no signed parameter or header is null |
| CloudAuth.Sign | src/main/java/com/baidu/aip/auth/CloudAuth.java:34-70 | non-null exactly when the signing-key HMAC, the canonical request and the signature HMAC all succeed; the signing key is HMAC(sk, prefix) and the signature is HMAC(signing key, canonical request); the header is the prefix, "//" and the signature; an empty secret key always gives null |
| CloudAuth.Seal | src/main/java/com/baidu/aip/auth/CloudAuth.java:63-65 | with an empty signed-headers slot the header is prefix + "//" + signature; null when any earlier step failed |
| CloudAuth.SignFormat | src/main/java/com/baidu/aip/auth/CloudAuth.java:41-65 | a returned header starts with "bce-auth-v1/ak/timestamp/1800//" and the rest is lowercase hex |
| CloudAuth.SignOrderIndependent | src/main/java/com/baidu/aip/auth/CloudAuth.java:49-63 | the header does not depend on the iteration order of either map |
| CloudAuth.SignIgnoresAuthorizationHeader | src/main/java/com/baidu/aip/auth/CloudAuth.java:34-70 | signing a request that already carries an Authorization header gives the same result, so the receiver can recompute it from the request as sent |
| CloudAuth.SignNullHeaderFails | src/main/java/com/baidu/aip/auth/CloudAuth.java:55-69 | a signed header holding null makes sign return null |
| Util.EncodeBytes | src/main/java/com/baidu/aip/util/Util.java:93-99 | the output length is the kept bytes plus three per escaped byte, and every output char is unreserved, a '/' when kept, '%' or an uppercase hex digit |
| Util.UriEncode | src/main/java/com/baidu/aip/util/Util.java:90-108 | encode-then-replace-%2F equals the per-byte encoding of the UTF-8 bytes |
| Util.RestoreSlashesOfByte | src/main/java/com/baidu/aip/util/Util.java:100-103 | replacing %2F after encoding one byte gives that byte's slash-keeping encoding |
| Util.RestoreSlashesOfEncoding | src/main/java/com/baidu/aip/util/Util.java:100-104 | replacing %2F in a slash-escaping encoding gives the slash-keeping encoding |
| Util.UriEncodeLength | src/main/java/com/baidu/aip/util/Util.java:93-98 | with '/' escaped, the length is the unreserved UTF-8 bytes plus three per other byte |
| Util.EncodeSlashOnlyAffectsSlash | src/main/java/com/baidu/aip/util/Util.java:100-104 | without a '/' byte the two modes agree |
| Util.SlashEncoding | src/main/java/com/baidu/aip/util/Util.java:100-104 | '/' stays literal with the flag off and becomes "%2F" with it on |
| Util.UnreservedFixedPoint | src/main/java/com/baidu/aip/util/Util.java:90-108 | a string of unreserved chars encodes to itself in either mode |
| Util.DecodeByte | src/main/java/com/baidu/aip/util/Util.java:94-98 | decoding one encoded byte gives that byte back |
| Util.EncodeBytesRoundTrip | src/main/java/com/baidu/aip/util/Util.java:93-99 | percent-decoding the encoding gives the bytes back, in either mode |
| Util.UriEncodeRoundTrip | src/main/java/com/baidu/aip/util/Util.java:90-108 | percent-decoding uriEncode gives the UTF-8 bytes of the input |
| Util.UriEncodeInjective | src/main/java/com/baidu/aip/util/Util.java:90-108 | equal encodings come from equal UTF-8 byte strings, and so from equal strings |
| Util.MkString | src/main/java/com/baidu/aip/util/Util.java:61-74 | the builder loop with its last separator deleted is the separator join: "" for no items, length the sum of the item lengths plus n-1 otherwise |
| Util.IsLiteral | src/main/java/com/baidu/aip/util/Util.java:174-177 | true iff every char is in [0-9a-zA-Z_]; the empty string is accepted |
| Util.GeneralError | src/main/java/com/baidu/aip/util/Util.java:167-172 | exactly the keys error_code and error_msg, holding the given values |
| SignUtil.EncodeHex | src/main/java/com/baidu/aip/util/SignUtil.java:52-63 | twice as long as the input; chars 2i and 2i+1 are the high and low nibble of byte i |
| SignUtil.EncodeHexIsLowerHex | src/main/java/com/baidu/aip/util/SignUtil.java:57-67 | every output char is in 0123456789abcdef |
| SignUtil.EncodeHexRoundTrip | src/main/java/com/baidu/aip/util/SignUtil.java:52-63 | reading the hex pairs back gives the input bytes |
| SignUtil.EncodeHexInjective | src/main/java/com/baidu/aip/util/SignUtil.java:52-63 | equal renderings come from equal byte strings |
| SignUtil.HmacSha256 | src/main/java/com/baidu/aip/util/SignUtil.java:26-37 | either lowercase hex, twice the digest's length, that reads back to the HMAC digest of the key and data bytes, or AipException(-1, …); always the exception for an empty key |
| SignUtil.Md5 | src/main/java/com/baidu/aip/util/SignUtil.java:39-50 | lowercase hex that reads back to the MD5 digest of the data's bytes in the charset, or null exactly when the charset or the algorithm fails |
| Http.NewRequest | src/main/java/com/baidu/aip/http/AipRequest.java:36-44 | empty header, parameter and body maps, method POST, format FORM_KV, the default encoding, no URI |
| Http.AddHeader | src/main/java/com/baidu/aip/http/AipRequest.java:67-72 | stores the pair and keeps every other header; the content encoding changes iff the key is exactly Content-Encoding; nothing else changes |
| Http.AddParam | src/main/java/com/baidu/aip/http/AipRequest.java:74-76 | stores the pair, keeps every other parameter, and changes nothing else |
| Http.AddBody | src/main/java/com/baidu/aip/http/AipRequest.java:78-80 | stores the pair, keeps every other body entry, and changes nothing else |
| Http.AddBodyAll | src/main/java/com/baidu/aip/http/AipRequest.java:82-86 | a null map changes nothing; otherwise each key of the map takes the map's value and every other key keeps its own |
| Http.BodyStr | src/main/java/com/baidu/aip/http/AipRequest.java:96-117 | FORM_KV gives "" for an empty body and the single token for a one-entry body; a format other than FORM_KV and RAW_JSON gives "" |
| Http.FreshRequestIsEmpty | src/main/java/com/baidu/aip/http/AipRequest.java:36-128 | a new request serialises to an empty body and an empty parameter string |
| Http.ParamStr | src/main/java/com/baidu/aip/http/AipRequest.java:119-128 | deleting the trailing '&' of the "k=v&" buffer leaves the '&'-join of the unencoded k=v tokens, in iteration order, and "" exactly when there are no parameters |
| Http.ParamBufferIsJoin | src/main/java/com/baidu/aip/http/AipRequest.java:120-123 | before the deletion the buffer is the join followed by one '&' |
| Http.EncodedHasNo | src/main/java/com/baidu/aip/http/AipRequest.java:101-104 | a char the encoder never emits does not occur in an encoded key or value |
| Http.FormTokenHasNoAmpersand | src/main/java/com/baidu/aip/http/AipRequest.java:100-105 | no FORM_KV token holds '&' |
| Http.FormBodyTokens | src/main/java/com/baidu/aip/http/AipRequest.java:97-107 | splitting the FORM_KV body on '&' gives exactly one token per body entry |
| Http.FormTokenRoundTrip | src/main/java/com/baidu/aip/http/AipRequest.java:100-105 | each token decodes to its entry's key and value; it has '=' exactly when the value is neither null nor "" |
| HashMaps.Put | src/main/java/com/baidu/aip/http/AipRequest.java:67-80 | afterwards get of the key gives the new value and every other key keeps its value; the size grows by one only for a new key |
| HashMaps.Get | src/main/java/com/baidu/aip/http/AipRequest.java:67-80 | get gives a value exactly when some entry has the key |
| HashMaps.GetFindsEntry | src/main/java/com/baidu/aip/http/AipRequest.java:67-80 | the value get gives is that of the first entry under the key |
| HashMaps.PutKeepsDistinct | src/main/java/com/baidu/aip/http/AipRequest.java:67-80 | put never makes a key occur twice |
| HashMaps.PutKeepsOthers | src/main/java/com/baidu/aip/http/AipRequest.java:67-80 | put keeps every entry under another key and adds only the new pair |
| HashMaps.PutAll | src/main/java/com/baidu/aip/http/AipRequest.java:82-86 | for a map with distinct keys, each of its keys takes its value and every other key keeps the old one |
| TreeSets.Insert | src/main/java/com/baidu/aip/auth/CloudAuth.java:84-91 | add keeps the elements plus the new one, and keeps the sequence strictly sorted |
| TreeSets.Less | src/main/java/com/baidu/aip/auth/CloudAuth.java:84 | String.compareTo(a, b) < 0: the first differing char decides, and a proper prefix comes first (the order of the TreeSets at CloudAuth.java:84 and 109) |
| TreeSets.LessIrreflexive | src/main/java/com/baidu/aip/auth/CloudAuth.java:84 | no string precedes itself |
| TreeSets.LessTransitive | src/main/java/com/baidu/aip/auth/CloudAuth.java:84 | the order is transitive |
| TreeSets.LessTotal | src/main/java/com/baidu/aip/auth/CloudAuth.java:84 | any two different strings are ordered one way or the other |
| TreeSets.SortedUnique | src/main/java/com/baidu/aip/auth/CloudAuth.java:84-93 | two strictly sorted sequences with the same elements are equal, so the iteration of a TreeSet depends only on its contents |
| Strings.LowerAscii | src/main/java/com/baidu/aip/auth/CloudAuth.java:111 | same length, each ASCII capital lowered and every other char kept |
| Strings.Utf8 | src/main/java/com/baidu/aip/util/Util.java:93 | String.getBytes("UTF8") gives between one and four bytes per char |
| Strings.CharUtf8Decodes | src/main/java/com/baidu/aip/util/Util.java:93 | the lead byte of each char's encoding announces its length, and the bytes carry the code point back |
| Strings.Utf8Injective | src/main/java/com/baidu/aip/util/Util.java:93 | different strings have different UTF-8 encodings |
| Strings.Utf8Ascii | src/main/java/com/baidu/aip/util/Util.java:93-95 | an ASCII string encodes to its own char codes, one byte each |
| Strings.Trim | src/main/java/com/baidu/aip/auth/CloudAuth.java:111-115 | String.trim: never longer, neither end of a non-empty result is at or below U+0020, and the result is "" exactly when every char of the input is |
| Strings.TrimInfix | src/main/java/com/baidu/aip/auth/CloudAuth.java:111-115 | the trimmed string is an infix s[i..j] of the input, and every char outside it is at or below U+0020 |
| Strings.TrimIdempotent | src/main/java/com/baidu/aip/auth/CloudAuth.java:111-115 | trimming a trimmed string changes nothing |
| Strings.Split | src/main/java/com/baidu/aip/client/BaseClient.java:216 | at least one piece, no piece holds the separator, and joining the pieces with it gives the input back; the converse is Strings.SplitJoin |
| Strings.SplitJoin | src/main/java/com/baidu/aip/client/BaseClient.java:216 | splitting a join gives the items back when none holds the separator |
| Strings.NatToString | src/main/java/com/baidu/aip/client/BaseClient.java:277 | Integer.toString (and %d at CloudAuth.java:41) of a non-negative value is a non-empty run of decimal digits; that it reads back to the value is Json.DigitsOfNat |
| Json.PutString | src/main/java/com/baidu/aip/face/MatchRequest.java:45-55 | a non-null value is stored under the key, a null value removes the key, and every other key is untouched |
| Json.IsNull | src/main/java/com/baidu/aip/client/BaseClient.java:204 | isNull holds for an absent key or a JSON null (also at BaseClient.java:230 and 309) |
| Json.GetString | src/main/java/com/baidu/aip/client/BaseClient.java:207 | getString gives a value exactly when the key holds a string, and then that string (also at BaseClient.java:216) |
| Json.GetStringOfPut | src/main/java/com/baidu/aip/face/MatchRequest.java:45-55 | getString reads back what put stored, and a key put with null is null |
| Json.GetInt | src/main/java/com/baidu/aip/client/BaseClient.java:309-310 | getInt returns a JSON number as is, reads a string through Integer.parseInt, and throws on an absent key, null or any other value |
| Json.ParseInt | src/main/java/com/baidu/aip/client/BaseClient.java:309-310 | a string parseInt accepts starts with a sign or a digit, and its value lies in the int range |
| Json.DigitsOfNat | src/main/java/com/baidu/aip/client/BaseClient.java:309-310 | the decimal rendering of every natural number is all digits, and reading the digits back gives the number |
| Json.ParseIntOfNat | src/main/java/com/baidu/aip/client/BaseClient.java:309-310 | parseInt reads back the decimal rendering of every int-range value, with or without a minus sign |
| Json.GetIntOfDecimalString | src/main/java/com/baidu/aip/client/BaseClient.java:309-310 | a decimal string under the key is read by getInt as its number |
| Face.MatchSet | src/main/java/com/baidu/aip/face/MatchRequest.java:63-97 | each setter writes its own field and no other |
| Face.NewMatchRequest | src/main/java/com/baidu/aip/face/MatchRequest.java:26-32 | image and image type as given, the other three fields null |
| Face.NewFullMatchRequest | src/main/java/com/baidu/aip/face/MatchRequest.java:34-41 | all five fields stored verbatim |
| Face.MatchToJson | src/main/java/com/baidu/aip/face/MatchRequest.java:43-57 | each of the five keys is present exactly when its field is non-null, and then holds the field's string; there is no other key |
| Face.MatchRoundTrip | src/main/java/com/baidu/aip/face/MatchRequest.java:43-57 | reading the JSON back gives the request |
| Face.MatchBasicKeys | src/main/java/com/baidu/aip/face/MatchRequest.java:26-57 | after the two-argument constructor with non-null values, the JSON is exactly image and image_type |
| Face.VerifySet | src/main/java/com/baidu/aip/face/FaceVerifyRequest.java:44-54 | each setter writes its own field and no other |
| Face.NewFaceVerifyRequest | src/main/java/com/baidu/aip/face/FaceVerifyRequest.java:10-14 | image and image type as given, no face field |
| Face.NewFullFaceVerifyRequest | src/main/java/com/baidu/aip/face/FaceVerifyRequest.java:16-20 | all three fields stored verbatim |
| Face.VerifyToJson | src/main/java/com/baidu/aip/face/FaceVerifyRequest.java:22-30 | each of the three keys is present exactly when its field is non-null, and then holds the field's string; there is no other key |
| Face.VerifyRoundTrip | src/main/java/com/baidu/aip/face/FaceVerifyRequest.java:22-30 | reading the JSON back gives the request |
| Face.VerifyBasicKeys | src/main/java/com/baidu/aip/face/FaceVerifyRequest.java:10-30 | after the two-argument constructor with non-null values, the JSON is exactly image and image_type |
| Face.VerifyFullKeys | src/main/java/com/baidu/aip/face/FaceVerifyRequest.java:16-30 | after the three-argument constructor with non-null values, the JSON has exactly three keys |

## Left out

- Network and asynchronous code are not modelled. That covers AipHttpClient, DevAuth.oauth and the http2 futures. The OAuth reply (null, unparsable or a parsed object) and the server's status and body are inputs.
- The clock is not modelled. `now` is an input in milliseconds, and `Util.getCanonicalTime` becomes the `timestamp` input.
- HMAC-SHA256, MD5 and charset encoding are not modelled. They are uninterpreted functions of a `Platform` record.
- Thread safety is not modelled: `synchronized`, the `AtomicBoolean` flags and Log4j set-up in the constructor. The client is a value threaded through calls.
- The client configuration is not modelled: `setConfig`, the timeouts and the proxies. None of it affects the authentication decisions.
- The per-endpoint clients are left out. The one rule they add is AipSpeech's refusal with error 6, which `BaseClient.SpeechGate` states.
- There is no retry after an IAM rejection. The source returns error 6 and does not replay the call.
- The two-argument `AipRequest` constructor is left out. It leaves the format and the encoding null, and no core path uses it.
- The setters of the body format, the content encoding, the URI and the method are left out. They are plain field writes.
- AipResponse is left out. It is a data holder with no authentication logic.
- Http.BodyStr: the RAW_JSON branch is the abstract `renderJson` parameter, because it is org.json's rendering, key order included.
- BaseClient.GetAccessToken: org.json's getString coercion is not modelled, so getString on a non-string is treated as throwing. getInt on a string is modelled as Integer.parseInt.
- Json.GetInt: getInt's coercions of numbers are not modelled. A fractional or exponent number, such as 14.0, is treated as throwing, where Java truncates it. A JSON number outside the int range is read unchanged, where `intValue()` wraps it.
- BaseClient.RequestServer: inherits the Json.GetInt gaps for `error_code`.
- BaseClient.GetAccessToken: inherits the Json.GetInt gaps for `expires_in`, so an `expires_in` outside the int range gives the unwrapped expiry.
- Json.ParseInt: Integer.parseInt also accepts non-ASCII Unicode digits. The model accepts ASCII digits only.
- BaseClient.NeedAuth: `Calendar.add(DATE, 1)` is taken as exactly 86,400,000 ms, so a daylight-saving change is not modelled.
- BaseClient.GetAccessToken: the expiry now + 1000 × expires_in is an unbounded integer. `Calendar.add(SECOND, n)` widens to long milliseconds, so the two differ only past the long range.
- Strings.LowerAscii: `toLowerCase` is modelled for ASCII letters only. Other letters and locale rules are not.
- SignUtil.HmacSha256: `key.getBytes()` and `data.getBytes()` use the platform's default charset. Both are taken to be UTF-8.
- BaseClient.NewClient: the API key and the secret key are strings, never null. In Java a null API key would print as "null" in the authorization prefix, and a null secret key would make `hmacSha256` throw inside sign's try block, so sign would return null.
- Strings.Utf8: a Dafny string holds Unicode scalar values, while a Java String holds UTF-16 code units. A lone surrogate, which `getBytes("UTF8")` turns into '?', cannot be represented. TreeSets.Less orders by scalar value where `compareTo` orders by code unit. The two orders differ only outside the BMP, and every element the signer puts in a TreeSet is ASCII `uriEncode` output, so the signature is unaffected.
- Http.NewRequest: `HttpCharacterEncoding.DEFAULT_ENCODING` is not part of this model. It is taken to be "UTF-8".
- BaseClient.PreOperation: the Content-Type value `HttpContentType.FORM_URLENCODE_DATA` is not part of this model. It is taken to be "application/x-www-form-urlencoded".
- The model has no null map keys: every key is a string.
- `String.split` drops trailing empty strings, and the model does not. That only affects empty scope words, which are never access rights.
- Face.MatchToJson: `image` and `image_type` are always written, but org.json drops a key whose value is null. So they are present only when non-null, and the contract states that.
- Face.VerifyToJson: the same holds for `image` and `image_type`.
- Image and file I/O, the OCR polling loop and the constants-only files are not modelled. Their constants (1800, the signed-header set, "x-bce-", the access rights, 14 and 6) are model constants.

=== FILE: aiprequest.dfy ===
/** AipRequest: the mutable request record every endpoint fills in, here an
    immutable value threaded through its setters, and its two serialisers:
    the form-encoded body (getBodyStr) and the query string (getParamStr). */
module Http {
  import opened Wrappers
  import opened Strings
  import opened HashMaps
  import Util

  datatype BodyFormat = FormKv | RawJson | RawJsonArray

  /** A body value: Java null, a String, or any other object, which is
      rendered with its toString(). */
  datatype BodyValue = NullValue | Text(s: string) | Other(rendered: string)

  /** The parts of java.net.URI the core reads; getHost and getPath may be null. */
  datatype Uri = Uri(host: Option<string>, path: Option<string>)

  /** Header and parameter values are nullable Java strings. */
  datatype AipRequest = AipRequest(
    headers: HashMap<Option<string>>,
    params: HashMap<Option<string>>,
    body: HashMap<BodyValue>,
    uri: Option<Uri>,
    httpMethod: string,
    bodyFormat: BodyFormat,
    contentEncoding: Option<string>)

  /** HttpCharacterEncoding.DEFAULT_ENCODING (the class is not part of this model). */
  const DefaultEncoding := "UTF-8"

  /** Headers.CONTENT_ENCODING */
  const ContentEncodingHeader := "Content-Encoding"

  /** The no-argument constructor. */
  function NewRequest(): (r: AipRequest)
    ensures r.headers == [] && r.params == [] && r.body == []
    ensures r.httpMethod == "POST" && r.bodyFormat == FormKv
    ensures r.contentEncoding == Some(DefaultEncoding) && r.uri.None?
  {
    AipRequest([], [], [], None, "POST", FormKv, Some(DefaultEncoding))
  }

  /** addHeader: stores the pair; only the exact key "Content-Encoding" also
      sets the content encoding. */
  function AddHeader(req: AipRequest, key: string, value: Option<string>): (r: AipRequest)
    ensures Get(r.headers, key) == Some(value)
    ensures forall k :: k != key ==> Get(r.headers, k) == Get(req.headers, k)
    ensures r.contentEncoding == if key == ContentEncodingHeader then value else req.contentEncoding
    ensures r.params == req.params && r.body == req.body && r.uri == req.uri
    ensures r.httpMethod == req.httpMethod && r.bodyFormat == req.bodyFormat
  {
    var r := req.(headers := Put(req.headers, key, value));
    if key == ContentEncodingHeader then r.(contentEncoding := value) else r
  }

  /** addParam */
  function AddParam(req: AipRequest, key: string, value: Option<string>): (r: AipRequest)
    ensures Get(r.params, key) == Some(value)
    ensures forall k :: k != key ==> Get(r.params, k) == Get(req.params, k)
    ensures r == req.(params := r.params)
  {
    req.(params := Put(req.params, key, value))
  }

  /** addBody(key, value) */
  function AddBody(req: AipRequest, key: string, value: BodyValue): (r: AipRequest)
    ensures Get(r.body, key) == Some(value)
    ensures forall k :: k != key ==> Get(r.body, k) == Get(req.body, k)
    ensures r == req.(body := r.body)
  {
    req.(body := Put(req.body, key, value))
  }

  /** addBody(map): a null map changes nothing; otherwise every pair of
      `other` overwrites the value under its key. */
  function AddBodyAll(req: AipRequest, other: Option<HashMap<BodyValue>>): (r: AipRequest)
    ensures other.None? ==> r == req
    ensures other.Some? && DistinctKeys(other.value) ==>
      forall k :: Get(r.body, k) == if HasKey(other.value, k) then Get(other.value, k) else Get(req.body, k)
    ensures r == req.(body := r.body)
  {
    match other
    case None => req
    case Some(m) => req.(body := PutAll(req.body, m))
  }

  /** A FORM_KV token: a null or empty-string value renders as the encoded key
      alone; any other value as key=value, both percent-encoded. */
  function FormToken(e: Entry<BodyValue>): string {
    match e.value
    case NullValue => Util.UriEncode(e.key, true)
    case Text(s) =>
      if s == "" then Util.UriEncode(e.key, true)
      else Util.UriEncode(e.key, true) + "=" + Util.UriEncode(s, true)
    case Other(t) => Util.UriEncode(e.key, true) + "=" + Util.UriEncode(t, true)
  }

  function FormTokens(body: HashMap<BodyValue>): (r: seq<string>)
    ensures |r| == |body|
    ensures forall i :: 0 <= i < |body| ==> r[i] == FormToken(body[i])
    ensures forall i :: 0 <= i < |r| ==> '&' !in r[i]
  {
    assert forall i :: 0 <= i < |body| ==> '&' !in FormToken(body[i]) by {
      forall i | 0 <= i < |body| {
        FormTokenHasNoAmpersand(body[i]);
      }
    }
    seq(|body|, i requires 0 <= i < |body| => FormToken(body[i]))
  }

  /** getBodyStr: FORM_KV joins the tokens with '&'; RAW_JSON is the org.json
      rendering `renderJson` of the body (library behaviour, left abstract);
      any other format gives "". */
  function BodyStr(req: AipRequest, renderJson: HashMap<BodyValue> -> string): (r: string)
    ensures req.bodyFormat == RawJsonArray ==> r == ""
    ensures req.bodyFormat == FormKv && req.body == [] ==> r == ""
    ensures req.bodyFormat == FormKv && |req.body| == 1 ==> r == FormToken(req.body[0])
  {
    match req.bodyFormat
    case FormKv => Join(FormTokens(req.body), '&')
    case RawJson => renderJson(req.body)
    case RawJsonArray => ""
  }

  /** The value as String.format("%s") renders it: null prints "null". */
  function Render(v: Option<string>): string {
    v.GetOr("null")
  }

  function ParamToken(e: Entry<Option<string>>): string {
    e.key + "=" + Render(e.value)
  }

  function ParamTokens(params: HashMap<Option<string>>): (r: seq<string>)
    ensures |r| == |params|
    ensures forall i :: 0 <= i < |params| ==> r[i] == ParamToken(params[i])
  {
    seq(|params|, i requires 0 <= i < |params| => ParamToken(params[i]))
  }

  /** The StringBuffer of getParamStr before its last char is deleted. */
  function ParamBuffer(params: HashMap<Option<string>>): string {
    if |params| == 0 then "" else ParamToken(params[0]) + "&" + ParamBuffer(params[1..])
  }

  /** getParamStr: "k=v&" per entry, then the trailing '&' deleted, which
      leaves the '&'-join of the unencoded k=v tokens, and "" exactly for an
      empty parameter map. */
  function ParamStr(req: AipRequest): (r: string)
    ensures r == Join(ParamTokens(req.params), '&')
    ensures r == "" <==> req.params == []
  {
    var buffer := ParamBuffer(req.params);
    TrimmedBufferIsJoin(req.params);
    if |buffer| > 0 then buffer[..|buffer| - 1] else buffer
  }

  /** A fresh request serialises to an empty body and an empty query string. */
  lemma FreshRequestIsEmpty(renderJson: HashMap<BodyValue> -> string)
    ensures BodyStr(NewRequest(), renderJson) == ""
    ensures ParamStr(NewRequest()) == ""
  {
  }

  /** Deleting the last char of the buffer leaves the join. */
  lemma TrimmedBufferIsJoin(ps: HashMap<Option<string>>)
    ensures |ps| == 0 ==> ParamBuffer(ps) == "" && Join(ParamTokens(ps), '&') == ""
    ensures |ps| > 0 ==>
      var buffer := ParamBuffer(ps);
      && |buffer| > 0
      && buffer[..|buffer| - 1] == Join(ParamTokens(ps), '&')
      && Join(ParamTokens(ps), '&') != ""
  {
    var tokens := ParamTokens(ps);
    if |ps| > 0 {
      ParamBufferIsJoin(ps);
      var buffer := ParamBuffer(ps);
      assert buffer == Join(tokens, '&') + "&";
      assert buffer[..|buffer| - 1] == Join(tokens, '&');
      assert |ParamToken(ps[0])| > 0;
      JoinLength(tokens, '&');
    }
  }

  lemma {:induction false} ParamBufferIsJoin(ps: HashMap<Option<string>>)
    requires |ps| > 0
    ensures ParamBuffer(ps) == Join(ParamTokens(ps), '&') + "&"
  {
    var tokens := ParamTokens(ps);
    if |ps| > 1 {
      ParamBufferIsJoin(ps[1..]);
      assert tokens[1..] == ParamTokens(ps[1..]);
    }
  }

  lemma EncodedHasNo(value: string, c: char)
    requires !Util.EncodedChar(c, true)
    ensures c !in Util.UriEncode(value, true)
  {
  }

  /** No FORM_KV token holds '&': '&' is always percent-encoded. */
  lemma FormTokenHasNoAmpersand(e: Entry<BodyValue>)
    ensures '&' !in FormToken(e)
  {
    EncodedHasNo(e.key, '&');
    match e.value
    case NullValue =>
    case Text(s) => EncodedHasNo(s, '&');
    case Other(t) => EncodedHasNo(t, '&');
  }

  /** The FORM_KV body splits on '&' into exactly one token per body entry,
      in iteration order. */
  lemma FormBodyTokens(req: AipRequest, renderJson: HashMap<BodyValue> -> string)
    requires req.bodyFormat == FormKv && |req.body| > 0
    ensures Split(BodyStr(req, renderJson), '&') == FormTokens(req.body)
    ensures |Split(BodyStr(req, renderJson), '&')| == |req.body|
  {
    var ts := FormTokens(req.body);
    forall i | 0 <= i < |ts|
      ensures '&' !in ts[i]
    {
      FormTokenHasNoAmpersand(req.body[i]);
    }
    SplitJoin(ts, '&');
  }

  /** Reads a token back: the percent-decoded key, and the decoded value when
      the token has an '='. */
  function ParseFormToken(t: string): Option<(seq<byte>, Option<seq<byte>>)> {
    if '=' in t then
      var i := IndexOf(t, '=');
      match (Util.PercentDecode(t[..i]), Util.PercentDecode(t[i + 1..]))
      case (Some(k), Some(v)) => Some((k, Some(v)))
      case _ => None
    else
      match Util.PercentDecode(t)
      case Some(k) => Some((k, None))
      case None => None
  }

  /** What a body value contributes after the '=': nothing for null or "". */
  function ValueBytes(v: BodyValue): Option<seq<byte>> {
    match v
    case NullValue => None
    case Text(s) => if s == "" then None else Some(Utf8(s))
    case Other(t) => Some(Utf8(t))
  }

  /** Every token decodes to its entry's key and value: '=' appears in a token
      exactly when the value is neither null nor "". */
  lemma FormTokenRoundTrip(e: Entry<BodyValue>)
    ensures ParseFormToken(FormToken(e)) == Some((Utf8(e.key), ValueBytes(e.value)))
  {
    var k := Util.UriEncode(e.key, true);
    EncodedHasNo(e.key, '=');
    Util.UriEncodeRoundTrip(e.key, true);
    match e.value
    case NullValue =>
    case Text(s) =>
      if s != "" {
        IndexOfConcat(k, '=', Util.UriEncode(s, true));
        Util.UriEncodeRoundTrip(s, true);
        var t := k + "=" + Util.UriEncode(s, true);
        assert t[..|k|] == k;
        assert t[|k| + 1..] == Util.UriEncode(s, true);
      }
    case Other(r) =>
      IndexOfConcat(k, '=', Util.UriEncode(r, true));
      Util.UriEncodeRoundTrip(r, true);
      var t := k + "=" + Util.UriEncode(r, true);
      assert t[..|k|] == k;
      assert t[|k| + 1..] == Util.UriEncode(r, true);
  }
}

=== FILE: authstate.dfy ===
/** The authentication state machine of a client (BaseClient.AuthState) and
    the two flags it keeps in step: whether the key pair is a cloud (BCE)
    key pair, and whether an OAuth token with the needed scope was granted. */
module AuthState {

  datatype State =
    | Unknown
    | AipAuthOk
    | TrueAipUser
    | PossibleCloudUser
    | TrueCloudUser

  datatype Machine = Machine(state: State, isBceKey: bool, isAuthorized: bool)

  /** A fresh client: state unknown, neither flag set. */
  const Initial := Machine(Unknown, false, false)

  /** The transition table as a reference: where each state goes on each signal. */
  function Next(s: State, value: bool): State {
    match s
    case Unknown => if value then AipAuthOk else TrueCloudUser
    case AipAuthOk => if value then TrueAipUser else PossibleCloudUser
    case TrueAipUser => TrueAipUser
    case PossibleCloudUser => if value then TrueCloudUser else TrueAipUser
    case TrueCloudUser => TrueCloudUser
  }

  /** The states in which the client signs requests itself. */
  predicate CloudState(s: State) {
    s == PossibleCloudUser || s == TrueCloudUser
  }

  predicate Terminal(s: State) {
    s == TrueAipUser || s == TrueCloudUser
  }

  /** The flags agree with the state: cloud key exactly in the cloud states,
      authorised exactly in the developer end state. */
  predicate Inv(m: Machine) {
    && (m.isBceKey <==> CloudState(m.state))
    && (m.isAuthorized <==> m.state == TrueAipUser)
  }

  /** transfer: the switch on the current state, setting the flags in each arm. */
  function Transfer(m: Machine, value: bool): (r: Machine)
    ensures r.state == Next(m.state, value)
    ensures Terminal(m.state) ==> r == m
    ensures !Terminal(m.state) ==> r.isBceKey == CloudState(r.state)
    ensures m.isAuthorized ==> r.isAuthorized
    ensures r.isAuthorized != m.isAuthorized ==> r.state == TrueAipUser
  {
    match m.state
    case Unknown =>
      if value then m.(state := AipAuthOk, isBceKey := false)
      else m.(state := TrueCloudUser, isBceKey := true)
    case AipAuthOk =>
      if value then m.(state := TrueAipUser, isBceKey := false, isAuthorized := true)
      else m.(state := PossibleCloudUser, isBceKey := true)
    case TrueAipUser => m
    case PossibleCloudUser =>
      if value then m.(state := TrueCloudUser, isBceKey := true)
      else m.(state := TrueAipUser, isBceKey := false, isAuthorized := true)
    case TrueCloudUser => m
  }

  lemma InitialInv()
    ensures Inv(Initial) && !Terminal(Initial.state)
  {
  }

  /** Every transfer keeps the flags in step with the state. */
  lemma TransferPreservesInv(m: Machine, value: bool)
    requires Inv(m)
    ensures Inv(Transfer(m, value))
  {
  }

  /** Once terminal, no signal moves the machine. */
  lemma TerminalIsAbsorbing(m: Machine, value: bool)
    requires Terminal(m.state)
    ensures Transfer(m, value) == m
  {
  }

  /** No transfer ever leads back to Unknown. */
  lemma NeverUnknownAgain(m: Machine, value: bool)
    ensures Transfer(m, value).state != Unknown
  {
  }

  /** The distance to a terminal state. */
  function Rank(s: State): (r: nat)
    ensures r == 0 <==> Terminal(s)
  {
    match s
    case Unknown => 3
    case AipAuthOk => 2
    case PossibleCloudUser => 1
    case TrueAipUser => 0
    case TrueCloudUser => 0
  }

  /** Every transfer out of a non-terminal state gets strictly closer to the end. */
  lemma TransferProgresses(m: Machine, value: bool)
    requires !Terminal(m.state)
    ensures Rank(Transfer(m, value).state) < Rank(m.state)
  {
  }

  /** A run of transfers, one per signal, in order. */
  function TransferAll(m: Machine, signals: seq<bool>): Machine
    decreases |signals|
  {
    if |signals| == 0 then m else TransferAll(Transfer(m, signals[0]), signals[1..])
  }

  /** Along any run the invariant holds, and the machine is terminal as soon as
      the signals reach its rank: from Unknown three signals always suffice. */
  lemma {:induction false} TransferAllConverges(m: Machine, signals: seq<bool>)
    requires Inv(m)
    ensures Inv(TransferAll(m, signals))
    ensures |signals| >= Rank(m.state) ==> Terminal(TransferAll(m, signals).state)
    ensures m.state != Unknown ==> TransferAll(m, signals).state != Unknown
    decreases |signals|
  {
    if |signals| > 0 {
      var m' := Transfer(m, signals[0]);
      TransferPreservesInv(m, signals[0]);
      if !Terminal(m.state) {
        TransferProgresses(m, signals[0]);
      }
      TransferAllConverges(m', signals[1..]);
    }
  }

  /** The two developer-user paths and the two cloud-user paths from a fresh client. */
  lemma Paths()
    ensures TransferAll(Initial, [true, true]).state == TrueAipUser
    ensures TransferAll(Initial, [true, false, false]).state == TrueAipUser
    ensures TransferAll(Initial, [true, false, true]).state == TrueCloudUser
    ensures TransferAll(Initial, [false]).state == TrueCloudUser
  {
  }
}

=== FILE: baseclient.dfy ===
/** BaseClient: the decisions a client takes around each API call. Whether
    to fetch an OAuth token, how the OAuth reply moves the authentication
    state, how a request is completed for a cloud user (signed headers) or a
    developer user (access_token parameter), and how the first server reply
    of a possible cloud user settles who the client is. The network, the
    clock and the timestamp are inputs. */
module BaseClient {
  import opened Wrappers
  import opened Strings
  import opened HashMaps
  import opened AuthState
  import Json
  import Util
  import SignUtil
  import Http
  import CloudAuth

  /** Calendar.add(Calendar.DATE, 1), in milliseconds. */
  const DayMillis := 86_400_000

  /** AipClientConst.AI_ACCESS_RIGHT: a token with any of these scopes may call the APIs. */
  const AccessRights: set<string> := {"audio_voice_assistant_get", "audio_tts_post", "brain_all_scope"}

  /** AipClientConst.IAM_ERROR_CODE: the server's "not a cloud key" answer. */
  const IamErrorCode := 14

  const NoAccessErrorCode := 6
  const NoAccessErrorMsg := "No permission to access data"

  /** HttpContentType.FORM_URLENCODE_DATA */
  const FormUrlencodeData := "application/x-www-form-urlencoded"

  /** AipError.NET_TIMEOUT_ERROR.toJsonResult(): both fields are strings. */
  const NetTimeoutError: Json.JsonObject :=
    map["error_code" := Json.JStr("SDK108"), "error_msg" := Json.JStr("connection or read data time out")]

  /** The client's mutable fields; times are milliseconds. */
  datatype Client = Client(
    appId: string,
    apiKey: string,
    secretKey: string,
    accessToken: Option<string>,
    expireDate: Option<int>,
    auth: Machine)

  /** The constructor: no token, no expiry, state unknown, both flags false. */
  function NewClient(appId: string, apiKey: string, secretKey: string): (c: Client)
    ensures c.auth == Initial && c.accessToken.None? && c.expireDate.None?
    ensures c.appId == appId && c.apiKey == apiKey && c.secretKey == secretKey
  {
    Client(appId, apiKey, secretKey, None, None, Initial)
  }

  /** The reachable client states: the flags agree with the state, the
      intermediate AipAuthOk is never left behind by a completed token
      fetch, and a client that holds the OAuth identity holds a token. */
  predicate ClientInv(c: Client) {
    && Inv(c.auth)
    && c.auth.state != AipAuthOk
    && (c.auth.state == TrueAipUser || c.auth.state == PossibleCloudUser ==>
          c.accessToken.Some? && c.expireDate.Some?)
  }

  lemma NewClientInv(appId: string, apiKey: string, secretKey: string)
    ensures ClientInv(NewClient(appId, apiKey, secretKey))
  {
  }

  // ---------------------------------------------------------------------
  // needAuth

  /** needAuth: never for a cloud key; otherwise when not authorised, or when
      a day from now lies after the expiry date (a missing expiry date is
      never "before"). */
  function NeedAuth(c: Client, now: int): (r: bool)
    ensures c.auth.isBceKey ==> !r
    ensures !c.auth.isBceKey && !c.auth.isAuthorized ==> r
    ensures c.auth.isAuthorized && c.expireDate.None? ==> !r
    ensures !c.auth.isBceKey && c.auth.isAuthorized && c.expireDate.Some? ==>
              (r <==> c.expireDate.value - now < DayMillis)
  {
    if c.auth.isBceKey then false
    else !c.auth.isAuthorized || (c.expireDate.Some? && now + DayMillis > c.expireDate.value)
  }

  // ---------------------------------------------------------------------
  // getAccessToken

  /** A word of the scope list is one of the access rights; the for loop with break. */
  function AnyRight(words: seq<string>): (r: bool)
    ensures r <==> exists i :: 0 <= i < |words| && words[i] in AccessRights
  {
    if |words| == 0 then false
    else if words[0] in AccessRights then true
    else
      assert forall i :: 1 <= i < |words| ==> words[i] == words[1..][i - 1];
      AnyRight(words[1..])
  }

  /** The granted scopes, space separated, include an access right. */
  function HasRight(scope: string): bool {
    AnyRight(Split(scope, ' '))
  }

  /** The outcome of a call that may throw part-way: the fields it managed to
      set, and whether a JSONException escaped. */
  datatype Outcome = Outcome(client: Client, thrown: bool)

  /** An OAuth reply carrying a token, its lifetime in seconds and its scopes. */
  predicate WellFormedGrant(res: Json.JsonObject) {
    && Json.GetString(res, "access_token").Some?
    && Json.GetInt(res, "expires_in").Some?
    && Json.GetString(res, "scope").Some?
  }

  /** What DevAuth.oauth hands back: null when the request cannot be built,
      a body that new JSONObject rejects (the JSONException escapes), or the
      parsed object. An empty body arrives as the getGeneralError object of
      the status code, which is an ordinary parsed reply. */
  datatype OAuthReply = NoReply | Unparsable | Parsed(obj: Json.JsonObject)

  /** getAccessToken with the OAuth reply as input.
      A reply with a token signals true, then whether its scopes include an
      access right; a reply with only an error code signals false; a reply
      with neither changes nothing. The fields are read in the source's
      order, so a malformed grant throws after the first transfer. */
  function GetAccessToken(c: Client, now: int, reply: OAuthReply): (r: Outcome)
    ensures r.client.appId == c.appId && r.client.apiKey == c.apiKey && r.client.secretKey == c.secretKey
    ensures !NeedAuth(c, now) || reply.NoReply? ==> r == Outcome(c, false)
    ensures NeedAuth(c, now) && reply.Unparsable? ==> r == Outcome(c, true)
    ensures NeedAuth(c, now) && reply.Parsed? && WellFormedGrant(reply.obj) ==>
      var res := reply.obj;
      && !r.thrown
      && r.client.accessToken == Json.GetString(res, "access_token")
      && r.client.expireDate == Some(now + 1000 * Json.GetInt(res, "expires_in").value)
      && r.client.auth == Transfer(Transfer(c.auth, true), HasRight(Json.GetString(res, "scope").value))
    ensures NeedAuth(c, now) && reply.Parsed? && Json.IsNull(reply.obj, "access_token") ==>
      && !r.thrown
      && r.client == (if Json.IsNull(reply.obj, "error_code") then c else c.(auth := Transfer(c.auth, false)))
    ensures r.thrown ==>
      reply.Unparsable? || (reply.Parsed? && !Json.IsNull(reply.obj, "access_token") && !WellFormedGrant(reply.obj))
    ensures r.thrown && reply.Parsed? ==> r.client.auth == Transfer(c.auth, true)
  {
    if !NeedAuth(c, now) || reply.NoReply? then Outcome(c, false)
    else if reply.Unparsable? then Outcome(c, true)
    else
      var res := reply.obj;
      if !Json.IsNull(res, "access_token") then
        var c1 := c.(auth := Transfer(c.auth, true));
        match Json.GetString(res, "access_token")
        case None => Outcome(c1, true)
        case Some(token) =>
          var c2 := c1.(accessToken := Some(token));
          match Json.GetInt(res, "expires_in")
          case None => Outcome(c2, true)
          case Some(seconds) =>
            var c3 := c2.(expireDate := Some(now + 1000 * seconds));
            match Json.GetString(res, "scope")
            case None => Outcome(c3, true)
            case Some(scope) => Outcome(c3.(auth := Transfer(c3.auth, HasRight(scope))), false)
      else if !Json.IsNull(res, "error_code") then
        Outcome(c.(auth := Transfer(c.auth, false)), false)
      else
        Outcome(c, false)
  }

  /** From a fresh client, a well-formed grant makes a developer user when the
      scopes include an access right and a possible cloud user otherwise; an
      error reply makes a cloud user at once. */
  lemma FirstTokenFetch(c: Client, now: int, res: Json.JsonObject)
    requires c.auth == Initial
    ensures WellFormedGrant(res) ==>
      GetAccessToken(c, now, Parsed(res)).client.auth.state ==
        (if HasRight(Json.GetString(res, "scope").value) then TrueAipUser else PossibleCloudUser)
    ensures Json.IsNull(res, "access_token") && !Json.IsNull(res, "error_code") ==>
      GetAccessToken(c, now, Parsed(res)).client.auth == Machine(TrueCloudUser, true, false)
  {
  }

  /** A completed token fetch keeps the client in a reachable state. */
  lemma GetAccessTokenPreservesInv(c: Client, now: int, reply: OAuthReply)
    requires ClientInv(c)
    requires !GetAccessToken(c, now, reply).thrown
    ensures ClientInv(GetAccessToken(c, now, reply).client)
  {
    var r := GetAccessToken(c, now, reply);
    if NeedAuth(c, now) && reply.Parsed? && !Json.IsNull(reply.obj, "access_token") {
      TransferPreservesInv(c.auth, true);
      TransferPreservesInv(Transfer(c.auth, true), HasRight(Json.GetString(reply.obj, "scope").value));
    }
  }

  /** A fresh token is not fetched again until one day before it expires, and
      is fetched again from then on. */
  lemma RefreshOneDayBeforeExpiry(c: Client, now: int, res: Json.JsonObject, later: int)
    requires ClientInv(c) && NeedAuth(c, now) && WellFormedGrant(res)
    requires GetAccessToken(c, now, Parsed(res)).client.auth.state == TrueAipUser
    ensures NeedAuth(GetAccessToken(c, now, Parsed(res)).client, later) <==>
              later > now + 1000 * Json.GetInt(res, "expires_in").value - DayMillis
  {
  }

  /** As written, a grant that throws after its first signal leaves the
      client in AipAuthOk, and the next grant then makes it a developer user
      without looking at the scopes: here a token whose only scope is "none". */
  lemma InterruptedGrantSkipsScopeCheck(now: int)
    ensures
      var c := NewClient("app", "ak", "sk");
      var broken := map["access_token" := Json.JStr("t")];
      var grant := map["access_token" := Json.JStr("t"), "expires_in" := Json.JNum(2592000), "scope" := Json.JStr("none")];
      var first := GetAccessToken(c, now, Parsed(broken));
      && first.thrown && first.client.auth.state == AipAuthOk
      && GetAccessToken(first.client, now, Parsed(grant)).client.auth.state == TrueAipUser
      && GetAccessToken(c, now, Parsed(grant)).client.auth.state == PossibleCloudUser
  {
    var grant := map["access_token" := Json.JStr("t"), "expires_in" := Json.JNum(2592000), "scope" := Json.JStr("none")];
    assert Split("none", ' ') == ["none"];
    assert !HasRight("none");
  }

  // ---------------------------------------------------------------------
  // preOperation

  datatype Prepared = Prepared(outcome: Outcome, request: Http.AipRequest)

  /** preOperation: fetch a token if needed, then make the request a form POST
      accepting anything. An exception from the token fetch leaves the
      request untouched. */
  function PreOperation(c: Client, now: int, reply: OAuthReply, req: Http.AipRequest): (r: Prepared)
    ensures r.outcome == GetAccessToken(c, now, reply)
    ensures r.outcome.thrown ==> r.request == req
    ensures !r.outcome.thrown ==>
      && r.request.httpMethod == "POST"
      && Get(r.request.headers, "Content-Type") == Some(Some(FormUrlencodeData))
      && Get(r.request.headers, "accept") == Some(Some("*/*"))
      && (forall k :: k != "Content-Type" && k != "accept" ==> Get(r.request.headers, k) == Get(req.headers, k))
      && r.request == req.(httpMethod := "POST", headers := r.request.headers)
  {
    var outcome := if NeedAuth(c, now) then GetAccessToken(c, now, reply) else Outcome(c, false);
    if outcome.thrown then Prepared(outcome, req)
    else
      var r1 := req.(httpMethod := "POST");
      var r2 := Http.AddHeader(r1, "Content-Type", Some(FormUrlencodeData));
      Prepared(outcome, Http.AddHeader(r2, "accept", Some("*/*")))
  }

  /** An OAuth body that is not a JSON object throws out of getAccessToken
      before any transfer, and so out of preOperation: the client and the
      request stay as they were. */
  lemma UnparsableReplyEscapes(c: Client, now: int, req: Http.AipRequest)
    requires NeedAuth(c, now)
    ensures PreOperation(c, now, Unparsable, req).outcome == Outcome(c, true)
    ensures PreOperation(c, now, Unparsable, req).request == req
  {
  }

  // ---------------------------------------------------------------------
  // postOperation

  datatype JavaException = NullPointerException

  /** The header names postOperation sets for a cloud user. */
  predicate SetByCloudBranch(k: string) {
    k in {"Content-Length", "Content-MD5", "Host", "x-bce-date", "Authorization"}
  }

  /** Content-Length, when the body encodes, and Content-MD5 (null when the
      digest cannot be computed). */
  function AddBodyHeaders(p: SignUtil.Platform, req: Http.AipRequest, body: string, encoding: string): (r: Http.AipRequest)
    ensures Get(r.headers, "Content-Length") ==
              (if p.charset(encoding, body).Some? then Some(Some(NatToString(|p.charset(encoding, body).value|)))
               else Get(req.headers, "Content-Length"))
    ensures Get(r.headers, "Content-MD5") == Some(SignUtil.Md5(p, body, encoding))
    ensures forall k :: k != "Content-Length" && k != "Content-MD5" ==> Get(r.headers, k) == Get(req.headers, k)
    ensures r == req.(headers := r.headers)
  {
    var r1 := match p.charset(encoding, body)
              case Some(bytes) => Http.AddHeader(req, "Content-Length", Some(NatToString(|bytes|)))
              case None => req;
    Http.AddHeader(r1, "Content-MD5", SignUtil.Md5(p, body, encoding))
  }

  /** Host, x-bce-date and the Authorization header, which is the signature of
      the request it ends up on. */
  function AddSignature(p: SignUtil.Platform, req: Http.AipRequest, u: Http.Uri, ak: string, sk: string, timestamp: string): (r: Http.AipRequest)
    ensures Get(r.headers, "Host") == Some(u.host)
    ensures Get(r.headers, "x-bce-date") == Some(Some(timestamp))
    ensures Get(r.headers, "Authorization") == Some(CloudAuth.Sign(p, r.httpMethod, u.path, r.params, r.headers, ak, sk, timestamp))
    ensures forall k :: k != "Host" && k != "x-bce-date" && k != "Authorization" ==> Get(r.headers, k) == Get(req.headers, k)
    ensures r == req.(headers := r.headers)
  {
    var r1 := Http.AddHeader(req, "Host", u.host);
    var r2 := Http.AddHeader(r1, "x-bce-date", Some(timestamp));
    var authorization := CloudAuth.Sign(p, r2.httpMethod, u.path, r2.params, r2.headers, ak, sk, timestamp);
    CloudAuth.SignIgnoresAuthorizationHeader(p, r2.httpMethod, u.path, r2.params, r2.headers, ak, sk, timestamp, authorization);
    Http.AddHeader(r2, "Authorization", authorization)
  }

  /** postOperation. A cloud user's request gets aipSdk=java, then
      Content-Length (only when the body encodes in the content encoding),
      Content-MD5, Host, x-bce-date and the signed Authorization header; a
      null content encoding or a null URI throws. A developer user's request
      gets aipSdk=java and its access token. */
  function PostOperation(p: SignUtil.Platform, c: Client, req: Http.AipRequest, timestamp: string,
                         renderJson: HashMap<Http.BodyValue> -> string): (r: Result<Http.AipRequest, JavaException>)
    ensures !c.auth.isBceKey ==>
      && r.Success?
      && Get(r.value.params, "aipSdk") == Some(Some("java"))
      && Get(r.value.params, "access_token") == Some(c.accessToken)
      && (forall k :: k != "aipSdk" && k != "access_token" ==> Get(r.value.params, k) == Get(req.params, k))
      && r.value == req.(params := r.value.params)
    ensures c.auth.isBceKey ==> (r.Failure? <==> req.contentEncoding.None? || req.uri.None?)
    ensures c.auth.isBceKey && r.Success? ==>
      var signed := Http.AddParam(req, "aipSdk", Some("java"));
      var body := Http.BodyStr(req, renderJson);
      r.value == AddSignature(p, AddBodyHeaders(p, signed, body, req.contentEncoding.value),
                              req.uri.value, c.apiKey, c.secretKey, timestamp)
  {
    if c.auth.isBceKey then
      var r1 := Http.AddParam(req, "aipSdk", Some("java"));
      var body := Http.BodyStr(r1, renderJson);
      match r1.contentEncoding
      case None => Failure(NullPointerException)
      case Some(encoding) =>
        var r2 := AddBodyHeaders(p, r1, body, encoding);
        match r2.uri
        case None => Failure(NullPointerException)
        case Some(u) => Success(AddSignature(p, r2, u, c.apiKey, c.secretKey, timestamp))
    else
      Success(Http.AddParam(Http.AddParam(req, "aipSdk", Some("java")), "access_token", c.accessToken))
  }

  /** What a cloud user's request looks like after postOperation: aipSdk
      added, the five headers set, the Authorization header the signature of
      the request as sent, and everything else as it was. */
  lemma CloudRequestShape(p: SignUtil.Platform, c: Client, req: Http.AipRequest, timestamp: string,
                          renderJson: HashMap<Http.BodyValue> -> string, out: Http.AipRequest)
    requires c.auth.isBceKey
    requires PostOperation(p, c, req, timestamp, renderJson) == Success(out)
    ensures Get(out.params, "aipSdk") == Some(Some("java"))
    ensures forall k :: k != "aipSdk" ==> Get(out.params, k) == Get(req.params, k)
    ensures
      var body := Http.BodyStr(req, renderJson);
      var encoding := req.contentEncoding.value;
      && Get(out.headers, "Content-Length") ==
           (if p.charset(encoding, body).Some? then Some(Some(NatToString(|p.charset(encoding, body).value|)))
            else Get(req.headers, "Content-Length"))
      && Get(out.headers, "Content-MD5") == Some(SignUtil.Md5(p, body, encoding))
    ensures Get(out.headers, "Host") == Some(req.uri.value.host)
    ensures Get(out.headers, "x-bce-date") == Some(Some(timestamp))
    ensures forall k :: !SetByCloudBranch(k) ==> Get(out.headers, k) == Get(req.headers, k)
    ensures out == req.(params := out.params, headers := out.headers)
    ensures Get(out.headers, "Authorization") ==
              Some(CloudAuth.Sign(p, out.httpMethod, out.uri.value.path, out.params, out.headers, c.apiKey, c.secretKey, timestamp))
  {
    var signed := Http.AddParam(req, "aipSdk", Some("java"));
    var body := Http.BodyStr(req, renderJson);
    var r2 := AddBodyHeaders(p, signed, body, req.contentEncoding.value);
    CloudSteps(p, signed, body, req.contentEncoding.value, req.uri.value, c.apiKey, c.secretKey, timestamp);
  }

  /** The cloud branch leaves every parameter but aipSdk as it was. */
  lemma CloudKeepsParam(p: SignUtil.Platform, c: Client, req: Http.AipRequest, timestamp: string,
                        renderJson: HashMap<Http.BodyValue> -> string, out: Http.AipRequest, k: string)
    requires c.auth.isBceKey
    requires PostOperation(p, c, req, timestamp, renderJson) == Success(out)
    requires k != "aipSdk"
    ensures HasKey(out.params, k) <==> HasKey(req.params, k)
  {
    CloudRequestShape(p, c, req, timestamp, renderJson, out);
    assert Get(out.params, k) == Get(req.params, k);
  }

  /** The cloud branch always attaches an Authorization header. */
  lemma CloudSignsRequest(p: SignUtil.Platform, c: Client, req: Http.AipRequest, timestamp: string,
                          renderJson: HashMap<Http.BodyValue> -> string, out: Http.AipRequest)
    requires c.auth.isBceKey
    requires PostOperation(p, c, req, timestamp, renderJson) == Success(out)
    ensures HasKey(out.headers, "Authorization")
  {
    CloudRequestShape(p, c, req, timestamp, renderJson, out);
    assert Get(out.headers, "Authorization").Some?;
  }

  /** The signing step touches only its own three headers. */
  lemma SignatureKeeps(p: SignUtil.Platform, req: Http.AipRequest, u: Http.Uri, ak: string, sk: string,
                       timestamp: string, k: string)
    requires k != "Host" && k != "x-bce-date" && k != "Authorization"
    ensures Get(AddSignature(p, req, u, ak, sk, timestamp).headers, k) == Get(req.headers, k)
  {
  }

  /** In particular it keeps the two body headers. */
  lemma SignatureKeepsBodyHeaders(p: SignUtil.Platform, req: Http.AipRequest, u: Http.Uri, ak: string, sk: string,
                                  timestamp: string)
    ensures Get(AddSignature(p, req, u, ak, sk, timestamp).headers, "Content-Length") == Get(req.headers, "Content-Length")
    ensures Get(AddSignature(p, req, u, ak, sk, timestamp).headers, "Content-MD5") == Get(req.headers, "Content-MD5")
  {
    assert |"Content-Length"| == 14 && |"Content-MD5"| == 11;
    SignatureKeeps(p, req, u, ak, sk, timestamp, "Content-Length");
    SignatureKeeps(p, req, u, ak, sk, timestamp, "Content-MD5");
  }

  /** The cloud branch step by step: the body headers, then the signature. */
  lemma CloudSteps(p: SignUtil.Platform, signed: Http.AipRequest, body: string, encoding: string, u: Http.Uri,
                   ak: string, sk: string, timestamp: string)
    ensures
      var out := AddSignature(p, AddBodyHeaders(p, signed, body, encoding), u, ak, sk, timestamp);
      && out.params == signed.params
      && out == signed.(headers := out.headers)
      && Get(out.headers, "Content-Length") ==
           (if p.charset(encoding, body).Some? then Some(Some(NatToString(|p.charset(encoding, body).value|)))
            else Get(signed.headers, "Content-Length"))
      && Get(out.headers, "Content-MD5") == Some(SignUtil.Md5(p, body, encoding))
      && (forall k :: !SetByCloudBranch(k) ==> Get(out.headers, k) == Get(signed.headers, k))
  {
    var mid := AddBodyHeaders(p, signed, body, encoding);
    var out := AddSignature(p, mid, u, ak, sk, timestamp);
    SignatureKeepsBodyHeaders(p, mid, u, ak, sk, timestamp);
    forall k | !SetByCloudBranch(k)
      ensures Get(out.headers, k) == Get(signed.headers, k)
    {
      SignatureKeeps(p, mid, u, ak, sk, timestamp, k);
    }
  }

  /** A cloud user's signature is null whenever the body digest could not be
      computed, since a signed header then holds null. */
  lemma Md5FailureVoidsSignature(p: SignUtil.Platform, c: Client, req: Http.AipRequest, timestamp: string,
                                 renderJson: HashMap<Http.BodyValue> -> string, out: Http.AipRequest)
    requires c.auth.isBceKey
    requires PostOperation(p, c, req, timestamp, renderJson) == Success(out)
    requires SignUtil.Md5(p, Http.BodyStr(req, renderJson), req.contentEncoding.value).None?
    ensures Get(out.headers, "Authorization") == Some(None)
  {
    CloudRequestShape(p, c, req, timestamp, renderJson, out);
    CloudCanonicalNames();
    var i := GetIndex(out.headers, "Content-MD5");
    CloudAuth.SignNullHeaderFails(p, out.httpMethod, out.uri.value.path, out.params, out.headers,
                                  c.apiKey, c.secretKey, timestamp, i);
  }

  /** Where Get finds a key. */
  function GetIndex<V>(m: HashMap<V>, k: string): (i: nat)
    requires HasKey(m, k)
    ensures i < |m| && m[i].key == k && Some(m[i].value) == Get(m, k)
  {
    if m[0].key == k then 0
    else
      assert forall i :: 1 <= i < |m| ==> m[i] == m[1..][i - 1];
      1 + GetIndex(m[1..], k)
  }

  /** Content-MD5 is among the signed headers. */
  lemma CloudCanonicalNames()
    ensures CloudAuth.HeaderSelected("Content-MD5")
  {
    TrimUnblanked("Content-MD5");
    var name := CloudAuth.HeaderName("Content-MD5");
    assert name == "content-md5";
  }

  // ---------------------------------------------------------------------
  // requestServer

  /** The client after a server exchange, and the JSON handed to the caller. */
  datatype Exchange = Exchange(client: Client, reply: Json.JsonObject)

  /** requestServer with the HTTP status, the body text and its parse (None
      when the body is not a JSON object) as inputs. Only a possible cloud
      user learns from the reply: error code 14 means the key pair is not a
      cloud key, so the client becomes a developer user and the caller gets
      the no-permission error; anything else confirms the cloud user. */
  function RequestServer(c: Client, status: int, resData: string, parsed: Option<Json.JsonObject>): (r: Exchange)
    ensures status != 200 || resData == "" ==> r == Exchange(c, NetTimeoutError)
    ensures status == 200 && resData != "" && parsed.None? ==> r == Exchange(c, Util.GeneralError(-1, resData))
    ensures c.auth.state != PossibleCloudUser ==> r.client == c
    ensures r.client == c.(auth := r.client.auth)
    ensures r.client.auth != c.auth ==> c.auth.state == PossibleCloudUser && Terminal(r.client.auth.state)
    ensures c.auth.state == PossibleCloudUser && status == 200 && resData != "" && parsed.Some? ==>
      var res := parsed.value;
      && (Json.IsNull(res, "error_code") ==> r == Exchange(c.(auth := Transfer(c.auth, true)), res))
      && (Json.GetInt(res, "error_code") == Some(IamErrorCode) ==>
            r == Exchange(c.(auth := Transfer(c.auth, false)), Util.GeneralError(NoAccessErrorCode, NoAccessErrorMsg)))
      && (Json.GetInt(res, "error_code").Some? && Json.GetInt(res, "error_code") != Some(IamErrorCode) ==>
            r == Exchange(c.(auth := Transfer(c.auth, true)), res))
      && (!Json.IsNull(res, "error_code") && Json.GetInt(res, "error_code").None? ==>
            r == Exchange(c, Util.GeneralError(-1, resData)))
    ensures c.auth.state != PossibleCloudUser && status == 200 && resData != "" && parsed.Some? ==>
      r.reply == parsed.value
  {
    if status != 200 || resData == "" then Exchange(c, NetTimeoutError)
    else
      match parsed
      case None => Exchange(c, Util.GeneralError(-1, resData))
      case Some(res) =>
        if c.auth.state == PossibleCloudUser then
          if Json.IsNull(res, "error_code") then Exchange(c.(auth := Transfer(c.auth, true)), res)
          else
            match Json.GetInt(res, "error_code")
            case None => Exchange(c, Util.GeneralError(-1, resData))
            case Some(code) =>
              var cloudAuthState := code != IamErrorCode;
              var c' := c.(auth := Transfer(c.auth, cloudAuthState));
              if cloudAuthState then Exchange(c', res)
              else Exchange(c', Util.GeneralError(NoAccessErrorCode, NoAccessErrorMsg))
        else Exchange(c, res)
  }

  lemma RequestServerPreservesInv(c: Client, status: int, resData: string, parsed: Option<Json.JsonObject>)
    requires ClientInv(c)
    ensures ClientInv(RequestServer(c, status, resData, parsed).client)
  {
    if c.auth.state == PossibleCloudUser {
      TransferPreservesInv(c.auth, true);
      TransferPreservesInv(c.auth, false);
    }
  }

  /** A possible cloud user is settled by its first parsable reply whose
      error code is absent or a number. */
  lemma PossibleCloudUserSettles(c: Client, resData: string, res: Json.JsonObject)
    requires ClientInv(c) && c.auth.state == PossibleCloudUser && resData != ""
    requires Json.IsNull(res, "error_code") || Json.GetInt(res, "error_code").Some?
    ensures Terminal(RequestServer(c, 200, resData, Some(res)).client.auth.state)
    ensures RequestServer(c, 200, resData, Some(res)).client.auth.isBceKey <==>
              Json.GetInt(res, "error_code") != Some(IamErrorCode)
  {
  }

  /** getInt parses a string code, so a reply whose error_code is the string
      "14" refuses the cloud key just as the number 14 does. */
  lemma StringCodeRefusesCloudKey(c: Client, resData: string, res: Json.JsonObject)
    requires c.auth.state == PossibleCloudUser && resData != ""
    requires "error_code" in res && res["error_code"] == Json.JStr("14")
    ensures RequestServer(c, 200, resData, Some(res)) ==
              Exchange(c.(auth := Transfer(c.auth, false)), Util.GeneralError(NoAccessErrorCode, NoAccessErrorMsg))
    ensures RequestServer(c, 200, resData, Some(res)).client.auth.state == TrueAipUser
  {
    assert Strings.NatToString(14) == "14";
    Json.GetIntOfDecimalString(res, "error_code", 14);
  }

  // ---------------------------------------------------------------------
  // Whole calls

  /** AipSpeech refuses its calls with the no-permission error once the
      client turns out to hold a cloud key. */
  function SpeechGate(c: Client): (r: Option<Json.JsonObject>)
    requires Inv(c.auth)
    ensures r.Some? <==> CloudState(c.auth.state)
    ensures r.Some? ==> r.value == Util.GeneralError(NoAccessErrorCode, NoAccessErrorMsg)
  {
    if c.auth.isBceKey then Some(Util.GeneralError(NoAccessErrorCode, NoAccessErrorMsg)) else None
  }

  /** A developer user's request carries the token it was granted. */
  lemma DeveloperUserCall(p: SignUtil.Platform, appId: string, apiKey: string, secretKey: string, now: int, token: string, seconds: int, req: Http.AipRequest,
                          timestamp: string, renderJson: HashMap<Http.BodyValue> -> string)
    ensures
      var c := NewClient(appId, apiKey, secretKey);
      var grant := map["access_token" := Json.JStr(token), "expires_in" := Json.JNum(seconds), "scope" := Json.JStr("brain_all_scope")];
      var prepared := PreOperation(c, now, Parsed(grant), req);
      var c' := prepared.outcome.client;
      && c'.auth.state == TrueAipUser
      && SpeechGate(c').None?
      && Get(PostOperation(p, c', prepared.request, timestamp, renderJson).value.params, "access_token") == Some(Some(token))
  {
    var c := NewClient(appId, apiKey, secretKey);
    var grant := map["access_token" := Json.JStr(token), "expires_in" := Json.JNum(seconds), "scope" := Json.JStr("brain_all_scope")];
    GrantedClient(appId, apiKey, secretKey, c, now, grant, token, seconds);
    var prepared := PreOperation(c, now, Parsed(grant), req);
    var c' := prepared.outcome.client;
    assert c'.accessToken == Some(token) && !c'.auth.isBceKey;
  }

  /** The first stage of a developer user's call: a grant with an access right. */
  lemma GrantedClient(appId: string, apiKey: string, secretKey: string, c: Client, now: int, grant: Json.JsonObject, token: string, seconds: int)
    requires c == NewClient(appId, apiKey, secretKey)
    requires grant == map["access_token" := Json.JStr(token), "expires_in" := Json.JNum(seconds), "scope" := Json.JStr("brain_all_scope")]
    ensures GetAccessToken(c, now, Parsed(grant)).client.auth == Machine(TrueAipUser, false, true)
    ensures GetAccessToken(c, now, Parsed(grant)).client.accessToken == Some(token)
  {
    SingleRight("brain_all_scope");
    assert WellFormedGrant(grant);
  }

  /** A scope made of one access right grants access. */
  lemma SingleRight(scope: string)
    requires scope in AccessRights
    ensures HasRight(scope)
  {
    assert ' ' !in scope;
    assert Split(scope, ' ') == [scope];
  }

  /** A key pair the OAuth server refuses belongs to a cloud user, whose
      requests are signed rather than carrying a token. */
  lemma CloudUserCall(p: SignUtil.Platform, appId: string, apiKey: string, secretKey: string, now: int, code: int, req: Http.AipRequest,
                      timestamp: string, renderJson: HashMap<Http.BodyValue> -> string)
    requires req.contentEncoding.Some? && req.uri.Some?
    ensures
      var c := NewClient(appId, apiKey, secretKey);
      var refusal := map["error_code" := Json.JNum(code)];
      var prepared := PreOperation(c, now, Parsed(refusal), req);
      var c' := prepared.outcome.client;
      var out := PostOperation(p, c', prepared.request, timestamp, renderJson);
      && c'.auth.state == TrueCloudUser
      && SpeechGate(c').Some?
      && out.Success?
      && HasKey(out.value.headers, "Authorization")
      && (HasKey(out.value.params, "access_token") <==> HasKey(req.params, "access_token"))
  {
    var c := NewClient(appId, apiKey, secretKey);
    var refusal := map["error_code" := Json.JNum(code)];
    var prepared := PreOperation(c, now, Parsed(refusal), req);
    RefusedClient(appId, apiKey, secretKey, c, now, refusal, req);
    SignedPost(p, prepared.outcome.client, prepared.request, timestamp, renderJson);
  }

  /** The first stage of a cloud user's call: the OAuth server refuses. */
  lemma RefusedClient(appId: string, apiKey: string, secretKey: string, c: Client, now: int, refusal: Json.JsonObject, req: Http.AipRequest)
    requires c == NewClient(appId, apiKey, secretKey)
    requires "access_token" !in refusal && "error_code" in refusal && refusal["error_code"] != Json.JNull
    ensures PreOperation(c, now, Parsed(refusal), req).outcome.client.auth == Machine(TrueCloudUser, true, false)
    ensures PreOperation(c, now, Parsed(refusal), req).request == req.(httpMethod := "POST", headers := PreOperation(c, now, Parsed(refusal), req).request.headers)
  {
  }

  /** The second stage of a cloud user's call: a request with an encoding and
      a URI is signed, and its parameters keep any access_token they had. */
  lemma SignedPost(p: SignUtil.Platform, c: Client, req: Http.AipRequest, timestamp: string,
                   renderJson: HashMap<Http.BodyValue> -> string)
    requires c.auth.isBceKey && req.contentEncoding.Some? && req.uri.Some?
    ensures PostOperation(p, c, req, timestamp, renderJson).Success?
    ensures HasKey(PostOperation(p, c, req, timestamp, renderJson).value.headers, "Authorization")
    ensures HasKey(PostOperation(p, c, req, timestamp, renderJson).value.params, "access_token") <==> HasKey(req.params, "access_token")
  {
    assert "access_token" != "aipSdk" by { assert |"access_token"| != |"aipSdk"|; }
    var r := PostOperation(p, c, req, timestamp, renderJson);
    assert r.Success?;
    var out := r.value;
    CloudKeepsParam(p, c, req, timestamp, renderJson, out, "access_token");
    CloudSignsRequest(p, c, req, timestamp, renderJson, out);
  }
}

=== FILE: cloudauth.dfy ===
/** CloudAuth: the bce-auth-v1 Authorization header for access-key users.
    The canonical request is method, URI, query and headers joined by '\n';
    the query and header parts are sorted token sets, so the header does not
    depend on the order in which the request's maps iterate. */
module CloudAuth {
  import opened Wrappers
  import opened Strings
  import opened HashMaps
  import opened TreeSets
  import Util
  import SignUtil
  import Http

  /** AipClientConst.BCE_AUTH_EXPIRE_IN_SECONDS */
  const ExpireSeconds := 1800

  /** AipClientConst.BCE_HEADER_TO_SIGN */
  const HeadersToSign: set<string> := {"host", "content-md5", "content-length", "content-type"}

  /** AipClientConst.BCE_PREFIX */
  const BcePrefix := "x-bce-"

  /** bce-auth-v1/{accessKeyId}/{timestamp}/{expirationPeriodInSeconds} */
  function AuthStringPrefix(ak: string, timestamp: string): string {
    "bce-auth-v1/" + ak + "/" + timestamp + "/" + NatToString(ExpireSeconds)
  }

  /** The prefix with the expiry written out: 1800 seconds. */
  lemma AuthStringPrefixExpiry(ak: string, timestamp: string)
    ensures AuthStringPrefix(ak, timestamp) == "bce-auth-v1/" + ak + "/" + timestamp + "/1800"
  {
  }

  /** getCanonicalUri: a '/' is prepended only when missing, then the path is
      encoded with '/' kept. A null path throws inside sign's try block. */
  function CanonicalUri(path: Option<string>): (r: Option<string>)
    ensures r.Some? <==> path.Some?
    ensures r.Some? ==> |r.value| > 0 && r.value[0] == '/'
    ensures r.Some? ==> r.value == Util.EncodeBytes(Utf8(WithLeadingSlash(path.value)), false)
  {
    match path
    case None => None
    case Some(p) =>
      var full := WithLeadingSlash(p);
      assert Utf8(full) == [Util.Slash] + Utf8(full[1..]);
      Some(Util.UriEncode(full, false))
  }

  function WithLeadingSlash(p: string): (r: string)
    ensures |r| > 0 && r[0] == '/'
    ensures r == p || r == "/" + p
    ensures r == p <==> StartsWith(p, "/")
  {
    if StartsWith(p, "/") then p else "/" + p
  }

  // ---------------------------------------------------------------------
  // The sorted token set shared by the query and the header canonical forms

  /** The tokens a map contributes: one per entry whose key is `selected` and
      whose value is not null. */
  ghost function TokenSet(entries: HashMap<Option<string>>, selected: string -> bool, token: (string, string) -> string): set<string> {
    set i | 0 <= i < |entries| && selected(entries[i].key) && entries[i].value.Some? :: token(entries[i].key, entries[i].value.value)
  }

  /** Some selected entry holds null: the source's loop then throws. */
  predicate SelectsNull(entries: HashMap<Option<string>>, selected: string -> bool) {
    exists i :: 0 <= i < |entries| && selected(entries[i].key) && entries[i].value.None?
  }

  /** The for-loop over the entries adding tokens to a TreeSet. */
  function Collect(entries: HashMap<Option<string>>, selected: string -> bool, token: (string, string) -> string, acc: seq<string>): (r: Option<seq<string>>)
    ensures r.None? <==> SelectsNull(entries, selected)
    ensures r.Some? ==> forall y :: y in r.value <==> y in acc || y in TokenSet(entries, selected, token)
    ensures r.Some? && StrictlySorted(acc) ==> StrictlySorted(r.value)
    decreases |entries|
  {
    if |entries| == 0 then Some(acc)
    else
      var e := entries[0];
      assert forall i :: 1 <= i < |entries| ==> entries[i] == entries[1..][i - 1];
      if !selected(e.key) then
        assert TokenSet(entries, selected, token) == TokenSet(entries[1..], selected, token);
        Collect(entries[1..], selected, token, acc)
      else if e.value.None? then None
      else
        var t := token(e.key, e.value.value);
        assert TokenSet(entries, selected, token) == {t} + TokenSet(entries[1..], selected, token);
        Collect(entries[1..], selected, token, Insert(acc, t))
  }

  /** An empty map gives ""; otherwise the sorted tokens joined with `sep`. */
  function Canonical(entries: HashMap<Option<string>>, selected: string -> bool, token: (string, string) -> string, sep: char): (r: Option<string>)
    ensures r.None? <==> SelectsNull(entries, selected)
  {
    if |entries| == 0 then Some("")
    else
      match Collect(entries, selected, token, [])
      case None => None
      case Some(ts) => Some(Join(ts, sep))
  }

  /** The canonical form is fixed by the entries alone: it is null exactly when
      a selected value is null, "" when nothing is selected, and otherwise
      splits into the contributed tokens in strictly ascending order. */
  lemma CanonicalShape(entries: HashMap<Option<string>>, selected: string -> bool, token: (string, string) -> string, sep: char)
    requires forall k, v :: sep !in token(k, v)
    ensures Canonical(entries, selected, token, sep).None? <==> SelectsNull(entries, selected)
    ensures Canonical(entries, selected, token, sep).Some? && TokenSet(entries, selected, token) == {} ==>
      Canonical(entries, selected, token, sep).value == ""
    ensures Canonical(entries, selected, token, sep).Some? && TokenSet(entries, selected, token) != {} ==>
      var parts := Split(Canonical(entries, selected, token, sep).value, sep);
      StrictlySorted(parts) && forall y :: y in parts <==> y in TokenSet(entries, selected, token)
  {
    if |entries| > 0 {
      var r := Collect(entries, selected, token, []);
      if r.Some? {
        CollectedSplit(entries, selected, token, sep, r.value);
      }
    }
  }

  lemma CollectedSplit(entries: HashMap<Option<string>>, selected: string -> bool, token: (string, string) -> string, sep: char, ts: seq<string>)
    requires forall k, v :: sep !in token(k, v)
    requires forall y :: y in ts <==> y in TokenSet(entries, selected, token)
    ensures |ts| == 0 <==> TokenSet(entries, selected, token) == {}
    ensures |ts| > 0 ==> Split(Join(ts, sep), sep) == ts
  {
    var T := TokenSet(entries, selected, token);
    if |ts| > 0 {
      forall i | 0 <= i < |ts|
        ensures sep !in ts[i]
      {
        assert ts[i] in T;
        var j :| 0 <= j < |entries| && selected(entries[j].key) && entries[j].value.Some? && ts[i] == token(entries[j].key, entries[j].value.value);
      }
      SplitJoin(ts, sep);
      assert ts[0] in T;
    } else {
      assert forall y :: y !in ts;
      assert T == {};
    }
  }

  /** Collecting from a permutation of the same entries gives the same tokens. */
  lemma TokenSetsAgree(a: HashMap<Option<string>>, b: HashMap<Option<string>>, selected: string -> bool, token: (string, string) -> string)
    requires forall e :: e in a <==> e in b
    ensures TokenSet(a, selected, token) == TokenSet(b, selected, token)
    ensures SelectsNull(a, selected) <==> SelectsNull(b, selected)
  {
    forall y | y in TokenSet(a, selected, token)
      ensures y in TokenSet(b, selected, token)
    {
      var i :| 0 <= i < |a| && selected(a[i].key) && a[i].value.Some? && y == token(a[i].key, a[i].value.value);
      assert a[i] in b;
      var j :| 0 <= j < |b| && b[j] == a[i];
    }
    forall y | y in TokenSet(b, selected, token)
      ensures y in TokenSet(a, selected, token)
    {
      var i :| 0 <= i < |b| && selected(b[i].key) && b[i].value.Some? && y == token(b[i].key, b[i].value.value);
      assert b[i] in a;
      var j :| 0 <= j < |a| && a[j] == b[i];
    }
    if SelectsNull(a, selected) {
      var i :| 0 <= i < |a| && selected(a[i].key) && a[i].value.None?;
      assert a[i] in b;
    }
    if SelectsNull(b, selected) {
      var i :| 0 <= i < |b| && selected(b[i].key) && b[i].value.None?;
      assert b[i] in a;
    }
  }

  /** Two maps with the same token sets and nulls canonicalise alike, as long
      as both are non-empty. */
  lemma CanonicalAgree(a: HashMap<Option<string>>, b: HashMap<Option<string>>, selected: string -> bool, token: (string, string) -> string, sep: char)
    requires |a| > 0 && |b| > 0
    requires TokenSet(a, selected, token) == TokenSet(b, selected, token)
    requires SelectsNull(a, selected) <==> SelectsNull(b, selected)
    ensures Canonical(a, selected, token, sep) == Canonical(b, selected, token, sep)
  {
    var ra := Collect(a, selected, token, []);
    var rb := Collect(b, selected, token, []);
    if ra.Some? {
      SortedUnique(ra.value, rb.value);
    }
  }

  /** The result does not depend on the map's iteration order. */
  lemma CanonicalOrderIndependent(a: HashMap<Option<string>>, b: HashMap<Option<string>>, selected: string -> bool, token: (string, string) -> string, sep: char)
    requires forall e :: e in a <==> e in b
    ensures Canonical(a, selected, token, sep) == Canonical(b, selected, token, sep)
  {
    if |a| > 0 {
      assert a[0] in b;
    }
    if |b| > 0 {
      assert b[0] in a;
    }
    if |a| > 0 && |b| > 0 {
      TokenSetsAgree(a, b, selected, token);
      CanonicalAgree(a, b, selected, token, sep);
    }
  }

  /** An entry that is not selected changes nothing. */
  lemma UnselectedIgnored(entries: HashMap<Option<string>>, e: Entry<Option<string>>, selected: string -> bool, token: (string, string) -> string, sep: char)
    requires !selected(e.key)
    ensures Canonical(entries + [e], selected, token, sep) == Canonical(entries, selected, token, sep)
  {
    var more := entries + [e];
    assert forall i :: 0 <= i < |entries| ==> more[i] == entries[i];
    assert TokenSet(more, selected, token) == TokenSet(entries, selected, token);
    assert SelectsNull(more, selected) <==> SelectsNull(entries, selected);
    if |entries| > 0 {
      CanonicalAgree(more, entries, selected, token, sep);
    } else {
      assert Collect(more, selected, token, []) == Some([]);
    }
  }

  /** Putting a value under a key that is not selected changes nothing, whether
      the key was already present or not. */
  lemma PutUnselected(entries: HashMap<Option<string>>, k: string, v: Option<string>, selected: string -> bool, token: (string, string) -> string, sep: char)
    requires !selected(k)
    ensures Canonical(Put(entries, k, v), selected, token, sep) == Canonical(entries, selected, token, sep)
  {
    var r := Put(entries, k, v);
    PutKeepsOthers(entries, k, v);
    forall y | y in TokenSet(r, selected, token)
      ensures y in TokenSet(entries, selected, token)
    {
      var i :| 0 <= i < |r| && selected(r[i].key) && r[i].value.Some? && y == token(r[i].key, r[i].value.value);
      assert r[i] in entries;
      var j :| 0 <= j < |entries| && entries[j] == r[i];
    }
    forall y | y in TokenSet(entries, selected, token)
      ensures y in TokenSet(r, selected, token)
    {
      var i :| 0 <= i < |entries| && selected(entries[i].key) && entries[i].value.Some? && y == token(entries[i].key, entries[i].value.value);
      assert entries[i] in r;
      var j :| 0 <= j < |r| && r[j] == entries[i];
    }
    if SelectsNull(r, selected) {
      var i :| 0 <= i < |r| && selected(r[i].key) && r[i].value.None?;
      assert r[i] in entries;
    }
    if SelectsNull(entries, selected) {
      var i :| 0 <= i < |entries| && selected(entries[i].key) && entries[i].value.None?;
      assert entries[i] in r;
    }
    if |entries| > 0 {
      CanonicalAgree(r, entries, selected, token, sep);
    } else {
      assert r == [Entry(k, v)];
      assert Collect(r, selected, token, []) == Collect(r[1..], selected, token, []);
    }
  }

  // ---------------------------------------------------------------------
  // getCanonicalQuery

  /** A parameter named "authorization", in any case, is never signed. */
  predicate QuerySelected(key: string) {
    LowerAscii(key) != "authorization"
  }

  function QueryToken(key: string, value: string): string {
    Util.UriEncode(key, true) + "=" + Util.UriEncode(value, true)
  }

  /** getCanonicalQuery: keys and values encoded with '/' encoded too. */
  function CanonicalQuery(params: HashMap<Option<string>>): (r: Option<string>)
    ensures r.None? <==> SelectsNull(params, QuerySelected)
  {
    Canonical(params, QuerySelected, QueryToken, '&')
  }

  lemma NoSeparatorInTokens()
    ensures forall k, v :: '&' !in QueryToken(k, v)
    ensures forall k, v :: '\n' !in HeaderToken(k, v)
  {
    forall k, v
      ensures '&' !in QueryToken(k, v) && '\n' !in HeaderToken(k, v)
    {
      Http.EncodedHasNo(k, '&');
      Http.EncodedHasNo(v, '&');
      Http.EncodedHasNo(HeaderName(k), '\n');
      Http.EncodedHasNo(Trim(v), '\n');
    }
  }

  /** The canonical query is null exactly when a signed parameter is null; it
      is "" when nothing is signed, and otherwise its '&'-separated parts are
      the encoded k=v tokens of the signed parameters, strictly ascending. */
  lemma CanonicalQueryShape(params: HashMap<Option<string>>)
    ensures CanonicalQuery(params).None? <==> SelectsNull(params, QuerySelected)
    ensures CanonicalQuery(params).Some? && TokenSet(params, QuerySelected, QueryToken) == {} ==> CanonicalQuery(params).value == ""
    ensures CanonicalQuery(params).Some? && TokenSet(params, QuerySelected, QueryToken) != {} ==>
      var parts := Split(CanonicalQuery(params).value, '&');
      StrictlySorted(parts) && forall y :: y in parts <==> y in TokenSet(params, QuerySelected, QueryToken)
  {
    NoSeparatorInTokens();
    CanonicalShape(params, QuerySelected, QueryToken, '&');
  }

  /** Adding an "authorization" parameter, in any case, leaves the query as it was. */
  lemma QueryIgnoresAuthorization(params: HashMap<Option<string>>, key: string, value: Option<string>)
    requires LowerAscii(key) == "authorization"
    ensures CanonicalQuery(params + [Entry(key, value)]) == CanonicalQuery(params)
  {
    UnselectedIgnored(params, Entry(key, value), QuerySelected, QueryToken, '&');
  }

  /** Every iteration order of the same parameters gives the same query. */
  lemma QueryOrderIndependent(a: HashMap<Option<string>>, b: HashMap<Option<string>>)
    requires forall e :: e in a <==> e in b
    ensures CanonicalQuery(a) == CanonicalQuery(b)
  {
    CanonicalOrderIndependent(a, b, QuerySelected, QueryToken, '&');
  }

  // ---------------------------------------------------------------------
  // getCanonicalHeaders

  /** The trimmed, lower-cased header name the signer works with. */
  function HeaderName(key: string): string {
    LowerAscii(Trim(key))
  }

  /** host, content-md5, content-length, content-type and every x-bce- header. */
  predicate HeaderSelected(key: string) {
    StartsWith(HeaderName(key), BcePrefix) || HeaderName(key) in HeadersToSign
  }

  function HeaderToken(key: string, value: string): string {
    Util.UriEncode(HeaderName(key), true) + ":" + Util.UriEncode(Trim(value), true)
  }

  /** getCanonicalHeaders: name:value tokens, sorted, one per line. */
  function CanonicalHeaders(headers: HashMap<Option<string>>): (r: Option<string>)
    ensures r.None? <==> SelectsNull(headers, HeaderSelected)
  {
    Canonical(headers, HeaderSelected, HeaderToken, '\n')
  }

  /** The canonical headers are null exactly when a signed header is null; ""
      when none is signed; otherwise their lines are the name:value tokens of
      the signed headers, strictly ascending. */
  lemma CanonicalHeadersShape(headers: HashMap<Option<string>>)
    ensures CanonicalHeaders(headers).None? <==> SelectsNull(headers, HeaderSelected)
    ensures CanonicalHeaders(headers).Some? && TokenSet(headers, HeaderSelected, HeaderToken) == {} ==> CanonicalHeaders(headers).value == ""
    ensures CanonicalHeaders(headers).Some? && TokenSet(headers, HeaderSelected, HeaderToken) != {} ==>
      var lines := Split(CanonicalHeaders(headers).value, '\n');
      StrictlySorted(lines) && forall y :: y in lines <==> y in TokenSet(headers, HeaderSelected, HeaderToken)
  {
    NoSeparatorInTokens();
    CanonicalShape(headers, HeaderSelected, HeaderToken, '\n');
  }

  /** A header outside the allow-list leaves the canonical headers as they were. */
  lemma HeadersIgnoreUnlisted(headers: HashMap<Option<string>>, key: string, value: Option<string>)
    requires !HeaderSelected(key)
    ensures CanonicalHeaders(headers + [Entry(key, value)]) == CanonicalHeaders(headers)
  {
    UnselectedIgnored(headers, Entry(key, value), HeaderSelected, HeaderToken, '\n');
  }

  /** For instance X-Custom is never signed. */
  lemma XCustomNotSigned(headers: HashMap<Option<string>>, value: Option<string>)
    ensures CanonicalHeaders(headers + [Entry("X-Custom", value)]) == CanonicalHeaders(headers)
  {
    UnlistedCloudHeaderName("X-Custom");
    HeadersIgnoreUnlisted(headers, "X-Custom", value);
  }

  /** A header name with no blank ends, not starting with x or X, and of a
      length none of the listed names has, is not signed. */
  lemma UnlistedHeaderName(key: string)
    requires |key| > 0 && !IsBlank(key[0]) && !IsBlank(key[|key| - 1])
    requires LowerChar(key[0]) != 'x'
    requires |key| != 4 && |key| != 11 && |key| != 12 && |key| != 14
    ensures !HeaderSelected(key)
  {
    TrimUnblanked(key);
    var name := HeaderName(key);
    assert |name| == |key| && name[0] != 'x';
  }

  /** A header name with no blank ends whose third letter is not b or B, and
      of a length none of the listed names has, is not signed either. */
  lemma UnlistedCloudHeaderName(key: string)
    requires |key| >= 3 && !IsBlank(key[0]) && !IsBlank(key[|key| - 1])
    requires LowerChar(key[2]) != 'b'
    requires |key| != 4 && |key| != 11 && |key| != 12 && |key| != 14
    ensures !HeaderSelected(key)
  {
    TrimUnblanked(key);
    var name := HeaderName(key);
    assert |name| == |key| && name[2] != 'b';
  }

  /** The Authorization header is never signed, so attaching it to a request
      leaves the canonical headers as they were. */
  lemma AuthorizationNotSigned(headers: HashMap<Option<string>>, value: Option<string>)
    ensures CanonicalHeaders(Put(headers, "Authorization", value)) == CanonicalHeaders(headers)
  {
    UnlistedHeaderName("Authorization");
    PutUnselected(headers, "Authorization", value, HeaderSelected, HeaderToken, '\n');
  }

  /** Every iteration order of the same headers gives the same lines. */
  lemma HeadersOrderIndependent(a: HashMap<Option<string>>, b: HashMap<Option<string>>)
    requires forall e :: e in a <==> e in b
    ensures CanonicalHeaders(a) == CanonicalHeaders(b)
  {
    CanonicalOrderIndependent(a, b, HeaderSelected, HeaderToken, '\n');
  }

  // ---------------------------------------------------------------------
  // sign

  /** Method, canonical URI, query and headers, one per line. */
  function CanonicalRequest(httpMethod: string, uri: string, query: string, headers: string): string {
    Join([httpMethod, uri, query, headers], '\n')
  }

  /** The canonical request of a request, or None when the try block of
      sign throws before the second HMAC: a null path or a null signed value. */
  function CanonicalRequestOf(httpMethod: string, path: Option<string>,
                              params: HashMap<Option<string>>, headers: HashMap<Option<string>>): (r: Option<string>)
    ensures r.Some? <==> path.Some? && !SelectsNull(params, QuerySelected) && !SelectsNull(headers, HeaderSelected)
  {
    match (CanonicalUri(path), CanonicalQuery(params), CanonicalHeaders(headers))
    case (Some(uri), Some(query), Some(canonicalHeaders)) =>
      Some(CanonicalRequest(httpMethod, uri, query, canonicalHeaders))
    case _ => None
  }

  /** sign: signingKey = HMAC(sk, prefix), then signature = HMAC(signingKey,
      canonical request), and the header prefix + "/" + "" + "/" + signature
      with an empty signed-headers slot. Any exception inside its try block
      (an HMAC failure, a null path, a null signed value) yields null, never
      a partial header. */
  function Sign(p: SignUtil.Platform, httpMethod: string, path: Option<string>,
                params: HashMap<Option<string>>, headers: HashMap<Option<string>>,
                ak: string, sk: string, timestamp: string): (r: Option<string>)
    ensures r.Some? <==>
      && SignUtil.HmacSha256(p, sk, AuthStringPrefix(ak, timestamp)).Success?
      && CanonicalRequestOf(httpMethod, path, params, headers).Some?
      && SignUtil.HmacSha256(p, SignUtil.HmacSha256(p, sk, AuthStringPrefix(ak, timestamp)).value,
                             CanonicalRequestOf(httpMethod, path, params, headers).value).Success?
    ensures r.Some? ==>
      r.value == AuthStringPrefix(ak, timestamp) + "//" +
        SignUtil.HmacSha256(p, SignUtil.HmacSha256(p, sk, AuthStringPrefix(ak, timestamp)).value,
                            CanonicalRequestOf(httpMethod, path, params, headers).value).value
    ensures sk == "" ==> r.None?
  {
    var prefix := AuthStringPrefix(ak, timestamp);
    Seal(p, prefix, SignUtil.HmacSha256(p, sk, prefix), CanonicalRequestOf(httpMethod, path, params, headers))
  }

  /** The second HMAC and the final String.format, given the signing key and
      the canonical request, either of which may have failed already. */
  function Seal(p: SignUtil.Platform, prefix: string, key: Result<string, SignUtil.AipException>, request: Option<string>): (r: Option<string>)
    ensures r.Some? <==> key.Success? && request.Some? && SignUtil.HmacSha256(p, key.value, request.value).Success?
    ensures r.Some? ==> r.value == prefix + "//" + SignUtil.HmacSha256(p, key.value, request.value).value
  {
    if key.Failure? || request.None? then None
    else
      var signature := SignUtil.HmacSha256(p, key.value, request.value);
      if signature.Failure? then None
      else
        var header := prefix + "/" + "" + "/" + signature.value;
        assert header == prefix + "//" + signature.value by {
          assert "/" + "" + "/" == "//";
        }
        Some(header)
  }

  /** A header sign returns is the prefix, two slashes and a lowercase hex
      signature. */
  lemma SignFormat(p: SignUtil.Platform, httpMethod: string, path: Option<string>,
                   params: HashMap<Option<string>>, headers: HashMap<Option<string>>,
                   ak: string, sk: string, timestamp: string)
    requires Sign(p, httpMethod, path, params, headers, ak, sk, timestamp).Some?
    ensures
      var r := Sign(p, httpMethod, path, params, headers, ak, sk, timestamp).value;
      var prefix := AuthStringPrefix(ak, timestamp);
      && StartsWith(r, prefix + "//")
      && SignUtil.IsLowerHex(r[|prefix| + 2..])
  {
    var r := Sign(p, httpMethod, path, params, headers, ak, sk, timestamp).value;
    var prefix := AuthStringPrefix(ak, timestamp);
    var signature := r[|prefix| + 2..];
    assert r == prefix + "//" + signature;
  }

  /** The header does not depend on the iteration order of either map. */
  lemma SignOrderIndependent(p: SignUtil.Platform, httpMethod: string, path: Option<string>,
                             params: HashMap<Option<string>>, params': HashMap<Option<string>>,
                             headers: HashMap<Option<string>>, headers': HashMap<Option<string>>,
                             ak: string, sk: string, timestamp: string)
    requires forall e :: e in params <==> e in params'
    requires forall e :: e in headers <==> e in headers'
    ensures Sign(p, httpMethod, path, params, headers, ak, sk, timestamp)
         == Sign(p, httpMethod, path, params', headers', ak, sk, timestamp)
  {
    QueryOrderIndependent(params, params');
    HeadersOrderIndependent(headers, headers');
  }

  /** The signature over a request is the same once its own Authorization
      header is attached, so the receiver can recompute it from the request
      as sent. */
  lemma SignIgnoresAuthorizationHeader(p: SignUtil.Platform, httpMethod: string, path: Option<string>,
                                       params: HashMap<Option<string>>, headers: HashMap<Option<string>>,
                                       ak: string, sk: string, timestamp: string, value: Option<string>)
    ensures Sign(p, httpMethod, path, params, Put(headers, "Authorization", value), ak, sk, timestamp)
         == Sign(p, httpMethod, path, params, headers, ak, sk, timestamp)
  {
    AuthorizationNotSigned(headers, value);
  }

  /** A signed header whose value is null makes sign return null. */
  lemma SignNullHeaderFails(p: SignUtil.Platform, httpMethod: string, path: Option<string>,
                            params: HashMap<Option<string>>, headers: HashMap<Option<string>>,
                            ak: string, sk: string, timestamp: string, i: nat)
    requires i < |headers| && HeaderSelected(headers[i].key) && headers[i].value.None?
    ensures Sign(p, httpMethod, path, params, headers, ak, sk, timestamp).None?
  {
    CanonicalHeadersShape(headers);
  }
}

=== FILE: face.dfy ===
/** The two request records of the face API that serialise themselves:
    MatchRequest and FaceVerifyRequest. Every field is a nullable string,
    and toJsonObject writes a key exactly for the fields that are not null:
    the optional ones are skipped by an explicit test, and the two that are
    always put vanish too when null, because JSONObject.put(key, null)
    removes the key. */
module Face {
  import opened Wrappers
  import opened Json

  /** The key is present exactly when the field is not null, and then holds
      the field's string. */
  predicate Holds(obj: JsonObject, key: string, field: Option<string>) {
    && (key in obj <==> field.Some?)
    && (key in obj ==> obj[key] == JStr(field.value))
  }

  // ---------------------------------------------------------------------
  // MatchRequest

  datatype MatchRequest = MatchRequest(
    image: Option<string>,
    imageType: Option<string>,
    faceType: Option<string>,
    qualityControl: Option<string>,
    livenessControl: Option<string>)

  /** The JSON key of each field. */
  datatype MatchField = MImage | MImageType | MFaceType | MQualityControl | MLivenessControl

  function MatchKey(f: MatchField): string {
    match f
    case MImage => "image"
    case MImageType => "image_type"
    case MFaceType => "face_type"
    case MQualityControl => "quality_control"
    case MLivenessControl => "liveness_control"
  }

  const MatchKeys: set<string> := {"image", "image_type", "face_type", "quality_control", "liveness_control"}

  /** The getters. */
  function MatchGet(m: MatchRequest, f: MatchField): Option<string> {
    match f
    case MImage => m.image
    case MImageType => m.imageType
    case MFaceType => m.faceType
    case MQualityControl => m.qualityControl
    case MLivenessControl => m.livenessControl
  }

  /** The setters: each writes its own field and no other. */
  function MatchSet(m: MatchRequest, f: MatchField, v: Option<string>): (r: MatchRequest)
    ensures MatchGet(r, f) == v
    ensures forall g :: g != f ==> MatchGet(r, g) == MatchGet(m, g)
  {
    match f
    case MImage => m.(image := v)
    case MImageType => m.(imageType := v)
    case MFaceType => m.(faceType := v)
    case MQualityControl => m.(qualityControl := v)
    case MLivenessControl => m.(livenessControl := v)
  }

  /** The two-argument constructor: the three optional fields are null. */
  function NewMatchRequest(image: Option<string>, imageType: Option<string>): (r: MatchRequest)
    ensures MatchGet(r, MImage) == image && MatchGet(r, MImageType) == imageType
    ensures forall f :: f !in {MImage, MImageType} ==> MatchGet(r, f).None?
  {
    MatchRequest(image, imageType, None, None, None)
  }

  /** The five-argument constructor. */
  function NewFullMatchRequest(image: Option<string>, imageType: Option<string>, faceType: Option<string>,
                               qualityControl: Option<string>, livenessControl: Option<string>): (r: MatchRequest)
    ensures MatchGet(r, MImage) == image && MatchGet(r, MImageType) == imageType
    ensures MatchGet(r, MFaceType) == faceType && MatchGet(r, MQualityControl) == qualityControl
    ensures MatchGet(r, MLivenessControl) == livenessControl
  {
    MatchRequest(image, imageType, faceType, qualityControl, livenessControl)
  }

  /** toJsonObject: a key for each non-null field, holding its string, and
      no other key. */
  function MatchToJson(m: MatchRequest): (r: JsonObject)
    ensures forall f :: Holds(r, MatchKey(f), MatchGet(m, f))
    ensures r.Keys <= MatchKeys
  {
    var o1 := PutString(map[], "image", m.image);
    var o2 := PutString(o1, "image_type", m.imageType);
    var o3 := if m.faceType.Some? then PutString(o2, "face_type", m.faceType) else o2;
    var o4 := if m.qualityControl.Some? then PutString(o3, "quality_control", m.qualityControl) else o3;
    var o5 := if m.livenessControl.Some? then PutString(o4, "liveness_control", m.livenessControl) else o4;
    assert Holds(o5, "image", m.image);
    assert Holds(o5, "image_type", m.imageType);
    assert Holds(o5, "face_type", m.faceType);
    assert Holds(o5, "quality_control", m.qualityControl);
    assert Holds(o5, "liveness_control", m.livenessControl);
    o5
  }

  /** Reads a request back from its JSON: an absent key is a null field. */
  function MatchFromJson(obj: JsonObject): MatchRequest {
    MatchRequest(GetString(obj, "image"), GetString(obj, "image_type"), GetString(obj, "face_type"),
                 GetString(obj, "quality_control"), GetString(obj, "liveness_control"))
  }

  /** The JSON loses nothing: reading it back gives the request. */
  lemma MatchRoundTrip(m: MatchRequest)
    ensures MatchFromJson(MatchToJson(m)) == m
  {
    var r := MatchToJson(m);
    assert GetString(r, MatchKey(MImage)) == m.image;
    assert GetString(r, MatchKey(MImageType)) == m.imageType;
    assert GetString(r, MatchKey(MFaceType)) == m.faceType;
    assert GetString(r, MatchKey(MQualityControl)) == m.qualityControl;
    assert GetString(r, MatchKey(MLivenessControl)) == m.livenessControl;
  }

  /** Requests built with the two-argument constructor from non-null values
      serialise to exactly image and image_type. */
  lemma MatchBasicKeys(image: string, imageType: string)
    ensures MatchToJson(NewMatchRequest(Some(image), Some(imageType))) ==
              map["image" := JStr(image), "image_type" := JStr(imageType)]
  {
    var m := NewMatchRequest(Some(image), Some(imageType));
    var r := MatchToJson(m);
    assert Holds(r, MatchKey(MImage), m.image) && Holds(r, MatchKey(MImageType), m.imageType);
    assert Holds(r, MatchKey(MFaceType), None) && Holds(r, MatchKey(MQualityControl), None);
    assert Holds(r, MatchKey(MLivenessControl), None);
    assert r.Keys == {"image", "image_type"};
  }

  // ---------------------------------------------------------------------
  // FaceVerifyRequest

  datatype FaceVerifyRequest = FaceVerifyRequest(
    image: Option<string>,
    imageType: Option<string>,
    faceField: Option<string>)

  datatype VerifyField = VImage | VImageType | VFaceField

  function VerifyKey(f: VerifyField): string {
    match f
    case VImage => "image"
    case VImageType => "image_type"
    case VFaceField => "face_field"
  }

  const VerifyKeys: set<string> := {"image", "image_type", "face_field"}

  /** The getters. */
  function VerifyGet(v: FaceVerifyRequest, f: VerifyField): Option<string> {
    match f
    case VImage => v.image
    case VImageType => v.imageType
    case VFaceField => v.faceField
  }

  /** The setters: each writes its own field and no other. */
  function VerifySet(v: FaceVerifyRequest, f: VerifyField, x: Option<string>): (r: FaceVerifyRequest)
    ensures VerifyGet(r, f) == x
    ensures forall g :: g != f ==> VerifyGet(r, g) == VerifyGet(v, g)
  {
    match f
    case VImage => v.(image := x)
    case VImageType => v.(imageType := x)
    case VFaceField => v.(faceField := x)
  }

  /** The two-argument constructor: no face field. */
  function NewFaceVerifyRequest(image: Option<string>, imageType: Option<string>): (r: FaceVerifyRequest)
    ensures VerifyGet(r, VImage) == image && VerifyGet(r, VImageType) == imageType
    ensures VerifyGet(r, VFaceField).None?
  {
    FaceVerifyRequest(image, imageType, None)
  }

  /** The three-argument constructor. */
  function NewFullFaceVerifyRequest(image: Option<string>, imageType: Option<string>, faceField: Option<string>): (r: FaceVerifyRequest)
    ensures VerifyGet(r, VImage) == image && VerifyGet(r, VImageType) == imageType
    ensures VerifyGet(r, VFaceField) == faceField
  {
    FaceVerifyRequest(image, imageType, faceField)
  }

  /** toJsonObject: a key for each non-null field, holding its string, and
      no other key. */
  function VerifyToJson(v: FaceVerifyRequest): (r: JsonObject)
    ensures forall f :: Holds(r, VerifyKey(f), VerifyGet(v, f))
    ensures r.Keys <= VerifyKeys
  {
    var o1 := PutString(map[], "image", v.image);
    var o2 := PutString(o1, "image_type", v.imageType);
    var o3 := if v.faceField.Some? then PutString(o2, "face_field", v.faceField) else o2;
    assert Holds(o3, "image", v.image);
    assert Holds(o3, "image_type", v.imageType);
    o3
  }

  /** Reads a request back from its JSON: an absent key is a null field. */
  function VerifyFromJson(obj: JsonObject): FaceVerifyRequest {
    FaceVerifyRequest(GetString(obj, "image"), GetString(obj, "image_type"), GetString(obj, "face_field"))
  }

  /** The JSON loses nothing: reading it back gives the request. */
  lemma VerifyRoundTrip(v: FaceVerifyRequest)
    ensures VerifyFromJson(VerifyToJson(v)) == v
  {
    var r := VerifyToJson(v);
    assert GetString(r, VerifyKey(VImage)) == v.image;
    assert GetString(r, VerifyKey(VImageType)) == v.imageType;
    assert GetString(r, VerifyKey(VFaceField)) == v.faceField;
  }

  /** Requests built with the two-argument constructor from non-null values
      serialise to exactly image and image_type. */
  lemma VerifyBasicKeys(image: string, imageType: string)
    ensures VerifyToJson(NewFaceVerifyRequest(Some(image), Some(imageType))) ==
              map["image" := JStr(image), "image_type" := JStr(imageType)]
  {
    var v := NewFaceVerifyRequest(Some(image), Some(imageType));
    var r := VerifyToJson(v);
    assert Holds(r, VerifyKey(VImage), v.image) && Holds(r, VerifyKey(VImageType), v.imageType);
    assert Holds(r, VerifyKey(VFaceField), None);
    assert r.Keys == {"image", "image_type"};
  }

  /** With all three fields non-null the JSON has exactly three keys. */
  lemma VerifyFullKeys(image: string, imageType: string, faceField: string)
    ensures |VerifyToJson(NewFullFaceVerifyRequest(Some(image), Some(imageType), Some(faceField))).Keys| == 3
  {
    var r := VerifyToJson(NewFullFaceVerifyRequest(Some(image), Some(imageType), Some(faceField)));
    assert VerifyKey(VImage) in r && VerifyKey(VImageType) in r && VerifyKey(VFaceField) in r;
    assert r.Keys == VerifyKeys;
  }
}

=== FILE: hashmap.dfy ===
/** java.util.HashMap<String, V> as an entry sequence whose order is the
    map's iteration order. Java leaves that order unspecified; results that
    must not depend on it are proved for every order. */
module HashMaps {
  import opened Wrappers

  datatype Entry<V> = Entry(key: string, value: V)

  type HashMap<V> = seq<Entry<V>>

  predicate HasKey<V>(m: HashMap<V>, k: string) {
    exists i :: 0 <= i < |m| && m[i].key == k
  }

  predicate DistinctKeys<V>(m: HashMap<V>) {
    forall i, j :: 0 <= i < j < |m| ==> m[i].key != m[j].key
  }

  /** HashMap.get, with None for an absent key. */
  function Get<V>(m: HashMap<V>, k: string): (r: Option<V>)
    ensures r.Some? <==> HasKey(m, k)
  {
    if |m| == 0 then None
    else if m[0].key == k then Some(m[0].value)
    else
      assert forall i :: 1 <= i < |m| ==> m[i] == m[1..][i - 1];
      Get(m[1..], k)
  }

  /** What get returns is the value of an entry under the key: the first one. */
  lemma {:induction false} GetFindsEntry<V>(m: HashMap<V>, k: string)
    ensures Get(m, k).Some? ==>
      exists i :: 0 <= i < |m| && m[i] == Entry(k, Get(m, k).value) && forall j :: 0 <= j < i ==> m[j].key != k
  {
    if |m| > 0 && m[0].key != k && Get(m, k).Some? {
      GetFindsEntry(m[1..], k);
      var i :| 0 <= i < |m[1..]| && m[1..][i] == Entry(k, Get(m[1..], k).value) && forall j :: 0 <= j < i ==> m[1..][j].key != k;
      assert m[i + 1] == Entry(k, Get(m, k).value);
      assert forall j :: 1 <= j < i + 1 ==> m[j].key == m[1..][j - 1].key;
    }
  }

  /** HashMap.put: replace the value of a present key in place, or append. */
  function Put<V>(m: HashMap<V>, k: string, v: V): (r: HashMap<V>)
    ensures Get(r, k) == Some(v)
    ensures forall k' :: k' != k ==> Get(r, k') == Get(m, k')
    ensures HasKey(m, k) ==> |r| == |m|
    ensures !HasKey(m, k) ==> |r| == |m| + 1
  {
    if |m| == 0 then [Entry(k, v)]
    else if m[0].key == k then [Entry(k, v)] + m[1..]
    else
      var t := Put(m[1..], k, v);
      assert forall i :: 1 <= i < |m| ==> m[i] == m[1..][i - 1];
      [m[0]] + t
  }

  /** put never makes a key occur twice. */
  lemma {:induction false} PutKeepsDistinct<V>(m: HashMap<V>, k: string, v: V)
    requires DistinctKeys(m)
    ensures DistinctKeys(Put(m, k, v))
    decreases |m|
  {
    var r := Put(m, k, v);
    if |m| > 0 && m[0].key == k {
      forall i, j | 0 <= i < j < |r|
        ensures r[i].key != r[j].key
      {
        assert r[j] == m[j];
        if i > 0 { assert r[i] == m[i]; }
      }
    } else if |m| > 0 {
      var t := Put(m[1..], k, v);
      PutKeepsDistinct(m[1..], k, v);
      PutKeepsOthers(m[1..], k, v);
      forall j | 0 <= j < |t|
        ensures t[j].key != m[0].key
      {
        assert t[j] in t;
        if t[j] in m[1..] {
          var x :| 0 <= x < |m[1..]| && m[1..][x] == t[j];
          assert m[x + 1] == t[j];
        }
      }
      assert r == [m[0]] + t;
      forall i, j | 0 <= i < j < |r|
        ensures r[i].key != r[j].key
      {
        assert r[j] == t[j - 1];
        if i > 0 { assert r[i] == t[i - 1]; }
      }
    }
  }

  /** put touches only the entry for its key: every other entry survives, and
      every entry of the result is old or carries the key. */
  lemma {:induction false} PutKeepsOthers<V>(m: HashMap<V>, k: string, v: V)
    ensures forall e :: e in m && e.key != k ==> e in Put(m, k, v)
    ensures forall e :: e in Put(m, k, v) ==> e in m || e == Entry(k, v)
    decreases |m|
  {
    if |m| > 0 && m[0].key != k {
      PutKeepsOthers(m[1..], k, v);
      assert m == [m[0]] + m[1..];
    }
  }

  /** HashMap.putAll: the entries of `other`, in its order, put one by one. */
  function PutAll<V>(m: HashMap<V>, other: HashMap<V>): (r: HashMap<V>)
    ensures DistinctKeys(other) ==>
      forall k :: Get(r, k) == if HasKey(other, k) then Get(other, k) else Get(m, k)
    decreases |other|
  {
    if |other| == 0 then m
    else
      var r := PutAll(Put(m, other[0].key, other[0].value), other[1..]);
      assert forall i :: 1 <= i < |other| ==> other[i] == other[1..][i - 1];
      r
  }
}

=== FILE: json.dfy ===
/** The slice of org.json the core relies on: object values, put (which
    removes the key when the value is null), isNull, getInt and getString. */
module Json {
  import opened Wrappers
  import Strings

  datatype JsonValue = JNull | JNum(n: int) | JStr(s: string) | JOther

  type JsonObject = map<string, JsonValue>

  /** JSONObject.put(key, String value): a null value removes the key. */
  function PutString(obj: JsonObject, key: string, value: Option<string>): (r: JsonObject)
    ensures value.Some? ==> key in r && r[key] == JStr(value.value)
    ensures value.None? ==> key !in r
    ensures forall k :: k != key ==> (k in r <==> k in obj)
    ensures forall k :: k != key && k in r ==> r[k] == obj[k]
  {
    match value
    case Some(v) => obj[key := JStr(v)]
    case None => obj - {key}
  }

  /** JSONObject.isNull: the key is absent or maps to JSON null. */
  predicate IsNull(obj: JsonObject, key: string) {
    key !in obj || obj[key] == JNull
  }

  /** The range of a Java int. */
  const IntMin := -0x8000_0000
  const IntMax := 0x7FFF_FFFF

  predicate IsDigits(s: string) {
    |s| > 0 && forall i :: 0 <= i < |s| ==> '0' <= s[i] <= '9'
  }

  /** The value of a run of decimal digits, most significant first. */
  function DigitsValue(s: string): nat
    requires forall i :: 0 <= i < |s| ==> '0' <= s[i] <= '9'
    decreases |s|
  {
    if |s| == 0 then 0 else 10 * DigitsValue(s[..|s| - 1]) + (s[|s| - 1] as int - '0' as int)
  }

  /** Integer.parseInt: an optional '+' or '-' and at least one decimal digit,
      with the value inside the int range; anything else throws. */
  function ParseInt(s: string): (r: Option<int>)
    ensures r.Some? ==> IntMin <= r.value <= IntMax
    ensures r.Some? ==> |s| > 0 && (s[0] == '-' || s[0] == '+' || '0' <= s[0] <= '9')
  {
    var signed := |s| > 0 && (s[0] == '-' || s[0] == '+');
    var digits := if signed then s[1..] else s;
    if !IsDigits(digits) then None
    else
      var v: int := if signed && s[0] == '-' then -(DigitsValue(digits) as int) else DigitsValue(digits);
      if IntMin <= v <= IntMax then Some(v) else None
  }

  /** Reading digits back inverts Integer.toString on non-negative values. */
  lemma {:induction false} DigitsOfNat(n: nat)
    ensures IsDigits(Strings.NatToString(n))
    ensures DigitsValue(Strings.NatToString(n)) == n
    decreases n
  {
    var s := Strings.NatToString(n);
    if n >= 10 {
      DigitsOfNat(n / 10);
      var front := Strings.NatToString(n / 10);
      assert s[..|s| - 1] == front;
      assert s[|s| - 1] as int - '0' as int == n % 10;
    }
  }

  /** parseInt reads back every int rendered in decimal, with or without a
      minus sign. */
  lemma ParseIntOfNat(n: nat)
    requires n <= IntMax
    ensures ParseInt(Strings.NatToString(n)) == Some(n)
    ensures ParseInt("-" + Strings.NatToString(n)) == Some(-(n as int))
  {
    DigitsOfNat(n);
    var s := Strings.NatToString(n);
    assert ("-" + s)[1..] == s;
  }

  /** JSONObject.getInt on a present key: a number as is, a string through
      Integer.parseInt, and None wherever it throws. */
  function GetInt(obj: JsonObject, key: string): (r: Option<int>)
    ensures key in obj && obj[key].JNum? ==> r == Some(obj[key].n)
    ensures key in obj && obj[key].JStr? ==> r == ParseInt(obj[key].s)
    ensures key !in obj || obj[key] == JNull || obj[key] == JOther ==> r.None?
  {
    if key !in obj then None
    else
      match obj[key]
      case JNum(n) => Some(n)
      case JStr(s) => ParseInt(s)
      case _ => None
  }

  /** A decimal string under the key reads as its number. */
  lemma GetIntOfDecimalString(obj: JsonObject, key: string, n: nat)
    requires n <= IntMax
    requires key in obj && obj[key] == JStr(Strings.NatToString(n))
    ensures GetInt(obj, key) == Some(n)
  {
    ParseIntOfNat(n);
  }

  /** JSONObject.getString on a present key: a string, or None where it throws. */
  function GetString(obj: JsonObject, key: string): (r: Option<string>)
    ensures r.Some? <==> key in obj && obj[key].JStr?
    ensures r.Some? ==> obj[key] == JStr(r.value)
  {
    if key in obj && obj[key].JStr? then Some(obj[key].s) else None
  }

  /** getString reads back what put stored, and nothing once put removed it. */
  lemma GetStringOfPut(obj: JsonObject, key: string, value: Option<string>)
    ensures GetString(PutString(obj, key, value), key) == value
    ensures value.None? ==> IsNull(PutString(obj, key, value), key)
  {
  }
}

=== FILE: signutil.dfy ===
/** SignUtil: lowercase hex rendering of digests, and HMAC-SHA256 / MD5 over a
    platform whose cryptographic primitives and charsets are left abstract. */
module SignUtil {
  import opened Wrappers
  import opened Strings

  const LowerHex := "0123456789abcdef"

  /** encodeHex: two lowercase hex digits per byte, high nibble first. */
  function EncodeHex(data: seq<byte>): (r: string)
    ensures |r| == 2 * |data|
    ensures forall i :: 0 <= i < |data| ==> r[2 * i] == LowerHex[data[i] / 16] && r[2 * i + 1] == LowerHex[data[i] % 16]
  {
    if |data| == 0 then ""
    else
      var tail := EncodeHex(data[1..]);
      var r := [LowerHex[data[0] / 16], LowerHex[data[0] % 16]] + tail;
      assert forall i :: 1 <= i < |data| ==> r[2 * i] == tail[2 * (i - 1)] && r[2 * i + 1] == tail[2 * (i - 1) + 1];
      r
  }

  /** Every char of the rendering is a lowercase hex digit. */
  predicate IsLowerHex(s: string) {
    forall i :: 0 <= i < |s| ==> s[i] in LowerHex
  }

  lemma EncodeHexIsLowerHex(data: seq<byte>)
    ensures IsLowerHex(EncodeHex(data))
  {
    var r := EncodeHex(data);
    forall k | 0 <= k < |r|
      ensures r[k] in LowerHex
    {
      var i := k / 2;
      if k % 2 == 0 {
        assert k == 2 * i;
      } else {
        assert k == 2 * i + 1;
      }
    }
  }

  function LowerHexValue(c: char): Option<nat> {
    if '0' <= c <= '9' then Some(c as int - '0' as int)
    else if 'a' <= c <= 'f' then Some(c as int - 'a' as int + 10)
    else None
  }

  /** Reads consecutive lowercase hex pairs back into bytes. */
  function DecodeHex(s: string): Option<seq<byte>>
    decreases |s|
  {
    if |s| == 0 then Some([])
    else if |s| == 1 || LowerHexValue(s[0]).None? || LowerHexValue(s[1]).None? then None
    else
      match DecodeHex(s[2..])
      case None => None
      case Some(rest) => Some([16 * LowerHexValue(s[0]).value + LowerHexValue(s[1]).value] + rest)
  }

  lemma LowerHexDigit(n: nat)
    requires n < 16
    ensures LowerHexValue(LowerHex[n]) == Some(n)
  {
  }

  lemma {:induction false} EncodeHexRoundTrip(data: seq<byte>)
    ensures DecodeHex(EncodeHex(data)) == Some(data)
  {
    if |data| > 0 {
      EncodeHexRoundTrip(data[1..]);
      DecodeHexPair(data[0], EncodeHex(data[1..]));
      assert data == [data[0]] + data[1..];
    }
  }

  lemma DecodeHexPair(b: byte, rest: string)
    ensures DecodeHex([LowerHex[b / 16], LowerHex[b % 16]] + rest)
         == (match DecodeHex(rest) case None => None case Some(t) => Some([b] + t))
  {
    LowerHexDigit(b / 16);
    LowerHexDigit(b % 16);
    var s := [LowerHex[b / 16], LowerHex[b % 16]] + rest;
    assert s[2..] == rest;
  }

  lemma EncodeHexInjective(a: seq<byte>, b: seq<byte>)
    requires EncodeHex(a) == EncodeHex(b)
    ensures a == b
  {
    EncodeHexRoundTrip(a);
    EncodeHexRoundTrip(b);
  }

  /** What the JVM supplies and the model leaves abstract. `hmacSha256(key,
      data)` is the HMAC-SHA256 digest of section 2 of RFC 2104, None when the
      algorithm is unavailable; `md5` is the MD5 digest, None when the
      algorithm is unavailable; `charset(name, s)` is String.getBytes(name),
      None when the charset is unsupported. */
  datatype Platform = Platform(
    hmacSha256: (seq<byte>, seq<byte>) -> Option<seq<byte>>,
    md5: seq<byte> -> Option<seq<byte>>,
    charset: (string, string) -> Option<seq<byte>>)

  datatype AipException = AipException(code: int, message: string)

  const HmacFailure := AipException(-1, "Fail to generate HMAC-SHA256 signature")

  /** hmacSha256: the hex digest of `data` under `key`, or AipException(-1, …)
      on any failure, including the empty key SecretKeySpec rejects. */
  function HmacSha256(p: Platform, key: string, data: string): (r: Result<string, AipException>)
    ensures r.Failure? ==> r.error == HmacFailure
    ensures key == "" ==> r.Failure?
    ensures r.Success? <==> key != "" && p.hmacSha256(Utf8(key), Utf8(data)).Some?
    ensures r.Success? ==> IsLowerHex(r.value) && |r.value| == 2 * |p.hmacSha256(Utf8(key), Utf8(data)).value|
    ensures r.Success? ==> DecodeHex(r.value) == p.hmacSha256(Utf8(key), Utf8(data))
  {
    var keyBytes := Utf8(key);
    if |keyBytes| == 0 then Failure(HmacFailure)
    else
      match p.hmacSha256(keyBytes, Utf8(data))
      case None => Failure(HmacFailure)
      case Some(digest) =>
        EncodeHexIsLowerHex(digest);
        EncodeHexRoundTrip(digest);
        Success(EncodeHex(digest))
  }

  /** md5: the hex digest of `data` in `charset`, or null when the charset or
      the algorithm is unavailable. */
  function Md5(p: Platform, data: string, charset: string): (r: Option<string>)
    ensures r.Some? <==> p.charset(charset, data).Some? && p.md5(p.charset(charset, data).value).Some?
    ensures r.Some? ==> IsLowerHex(r.value)
    ensures r.Some? ==> DecodeHex(r.value) == p.md5(p.charset(charset, data).value)
  {
    match p.charset(charset, data)
    case None => None
    case Some(msg) =>
      match p.md5(msg)
      case None => None
      case Some(digest) =>
        EncodeHexIsLowerHex(digest);
        EncodeHexRoundTrip(digest);
        Some(EncodeHex(digest))
  }
}

=== FILE: strings.dfy ===
/** Character-level helpers shared by the signer, the request serialisers and
    the client: bytes, Java's String.trim / toLowerCase / startsWith, splitting
    on one character, joining with one separator, and the UTF-8 encoding that
    String.getBytes("UTF8") performs. */
module Strings {

  /** A byte as the source reads it after masking with 0xFF: 0..255. */
  type byte = b: int | 0 <= b < 256

  predicate StartsWith(s: string, prefix: string) {
    |prefix| <= |s| && s[..|prefix|] == prefix
  }

  /** String.trim strips every leading and trailing char at or below U+0020. */
  predicate IsBlank(c: char) {
    c <= ' '
  }

  function TrimStart(s: string): (r: string)
    ensures |r| <= |s| && r == s[|s| - |r|..]
    ensures forall i :: 0 <= i < |s| - |r| ==> IsBlank(s[i])
    ensures |r| > 0 ==> !IsBlank(r[0])
  {
    if |s| > 0 && IsBlank(s[0]) then TrimStart(s[1..]) else s
  }

  function TrimEnd(s: string): (r: string)
    ensures |r| <= |s| && r == s[..|r|]
    ensures forall i :: |r| <= i < |s| ==> IsBlank(s[i])
    ensures |r| > 0 ==> !IsBlank(r[|r| - 1])
  {
    if |s| > 0 && IsBlank(s[|s| - 1]) then TrimEnd(s[..|s| - 1]) else s
  }

  /** String.trim: the longest infix with no blank char at either end. */
  function Trim(s: string): (r: string)
    ensures |r| <= |s|
    ensures |r| > 0 ==> !IsBlank(r[0]) && !IsBlank(r[|r| - 1])
    ensures r == "" <==> forall i :: 0 <= i < |s| ==> IsBlank(s[i])
  {
    TrimBlankEnds(s);
    TrimEnd(TrimStart(s))
  }

  lemma TrimBlankEnds(s: string)
    ensures var r := TrimEnd(TrimStart(s));
      && (|r| > 0 ==> !IsBlank(r[0]))
      && (r == "" <==> forall i :: 0 <= i < |s| ==> IsBlank(s[i]))
  {
    var t := TrimStart(s);
    var r := TrimEnd(t);
    if |r| > 0 {
      assert r[0] == t[0];
    }
  }

  /** Trim leaves a string alone when neither end is blank. */
  lemma TrimUnblanked(s: string)
    requires |s| > 0 && !IsBlank(s[0]) && !IsBlank(s[|s| - 1])
    ensures Trim(s) == s
  {
    assert TrimStart(s) == s;
  }

  /** The trimmed string is the infix of the input between its blank ends. */
  lemma TrimInfix(s: string) returns (i: nat, j: nat)
    ensures i <= j <= |s| && Trim(s) == s[i..j]
    ensures forall k :: 0 <= k < i || j <= k < |s| ==> IsBlank(s[k])
  {
    var t := TrimStart(s);
    i := |s| - |t|;
    j := i + |Trim(s)|;
    assert Trim(s) == t[..|Trim(s)|];
  }

  /** Trimming twice is trimming once. */
  lemma TrimIdempotent(s: string)
    ensures Trim(Trim(s)) == Trim(s)
  {
    if |Trim(s)| > 0 {
      TrimUnblanked(Trim(s));
    }
  }

  function LowerChar(c: char): char {
    if 'A' <= c <= 'Z' then (c as int + 32) as char else c
  }

  /** String.toLowerCase, restricted to the ASCII letters. */
  function LowerAscii(s: string): (r: string)
    ensures |r| == |s|
    ensures forall i :: 0 <= i < |s| ==> r[i] == LowerChar(s[i])
  {
    if |s| == 0 then "" else [LowerChar(s[0])] + LowerAscii(s[1..])
  }

  /** Index of the first occurrence of `c` in `s`. */
  function IndexOf(s: string, c: char): (i: nat)
    requires c in s
    ensures i < |s| && s[i] == c && c !in s[..i]
  {
    if s[0] == c then 0 else 1 + IndexOf(s[1..], c)
  }

  /** The first `c` of a + [c] + b is the one between them when `a` has none. */
  lemma IndexOfConcat(a: string, c: char, b: string)
    requires c !in a
    ensures c in a + [c] + b && IndexOf(a + [c] + b, c) == |a|
  {
    var s := a + [c] + b;
    assert s[|a|] == c;
    assert s[..|a|] == a;
  }

  /** Splits at every occurrence of `sep`, keeping empty pieces. */
  function Split(s: string, sep: char): (r: seq<string>)
    ensures |r| >= 1
    ensures forall j :: 0 <= j < |r| ==> sep !in r[j]
    ensures Join(r, sep) == s
    decreases |s|
  {
    if sep !in s then [s]
    else
      var i := IndexOf(s, sep);
      var rest := Split(s[i + 1..], sep);
      assert s == s[..i] + [sep] + s[i + 1..];
      assert sep !in s[..i];
      [s[..i]] + rest
  }

  /** The items with one `sep` between neighbours, none before or after. */
  function Join(items: seq<string>, sep: char): string {
    if |items| == 0 then ""
    else if |items| == 1 then items[0]
    else items[0] + [sep] + Join(items[1..], sep)
  }

  function SumLengths(items: seq<string>): nat {
    if |items| == 0 then 0 else |items[0]| + SumLengths(items[1..])
  }

  lemma {:induction false} JoinLength(items: seq<string>, sep: char)
    requires |items| > 0
    ensures |Join(items, sep)| == SumLengths(items) + |items| - 1
  {
    if |items| > 1 {
      JoinLength(items[1..], sep);
    }
  }

  /** Appending one item to a non-empty join adds one separator and the item. */
  lemma {:induction false} JoinSnoc(items: seq<string>, x: string, sep: char)
    requires |items| > 0
    ensures Join(items + [x], sep) == Join(items, sep) + [sep] + x
  {
    if |items| == 1 {
      assert items + [x] == [items[0], x];
    } else {
      assert (items + [x])[1..] == items[1..] + [x];
      JoinSnoc(items[1..], x, sep);
    }
  }

  /** Splitting a join gives the items back when no item holds the separator. */
  lemma {:induction false} SplitJoin(items: seq<string>, sep: char)
    requires |items| > 0
    requires forall i :: 0 <= i < |items| ==> sep !in items[i]
    ensures Split(Join(items, sep), sep) == items
  {
    if |items| > 1 {
      var s := Join(items, sep);
      var rest := Join(items[1..], sep);
      assert s == items[0] + [sep] + rest;
      assert s[|items[0]|] == sep;
      IndexOfConcat(items[0], sep, rest);
      assert s[..|items[0]|] == items[0];
      assert s[|items[0]| + 1..] == rest;
      SplitJoin(items[1..], sep);
    }
  }

  /** The UTF-8 encoding of one Unicode scalar value. */
  function CharUtf8(c: char): (r: seq<byte>)
    ensures 1 <= |r| <= 4
    ensures c as int < 128 ==> r == [c as int]
    ensures c as int >= 128 ==> forall i :: 0 <= i < |r| ==> r[i] >= 128
  {
    var cp := c as int;
    if cp < 0x80 then [cp]
    else if cp < 0x800 then [0xC0 + cp / 64, 0x80 + cp % 64]
    else if cp < 0x1_0000 then [0xE0 + cp / 4096, 0x80 + (cp / 64) % 64, 0x80 + cp % 64]
    else [0xF0 + cp / 262144, 0x80 + (cp / 4096) % 64, 0x80 + (cp / 64) % 64, 0x80 + cp % 64]
  }

  /** String.getBytes("UTF8"). */
  function Utf8(s: string): (r: seq<byte>)
    ensures |s| <= |r| <= 4 * |s|
  {
    if |s| == 0 then [] else CharUtf8(s[0]) + Utf8(s[1..])
  }

  /** The sequence length a UTF-8 lead byte announces. */
  function LeadLength(b: byte): nat {
    if b < 0x80 then 1 else if b < 0xE0 then 2 else if b < 0xF0 then 3 else 4
  }

  /** The code point one encoded sequence carries. */
  function CodePoint(bs: seq<byte>): int
    requires 1 <= |bs| <= 4
  {
    if |bs| == 1 then bs[0] as int
    else if |bs| == 2 then (bs[0] as int - 0xC0) * 64 + (bs[1] as int - 0x80)
    else if |bs| == 3 then (bs[0] as int - 0xE0) * 4096 + (bs[1] as int - 0x80) * 64 + (bs[2] as int - 0x80)
    else (bs[0] as int - 0xF0) * 262144 + (bs[1] as int - 0x80) * 4096 + (bs[2] as int - 0x80) * 64 + (bs[3] as int - 0x80)
  }

  /** Each char's bytes announce their own length and carry the char back. */
  lemma CharUtf8Decodes(c: char)
    ensures LeadLength(CharUtf8(c)[0]) == |CharUtf8(c)|
    ensures CodePoint(CharUtf8(c)) == c as int
  {
    var cp := c as int;
    if cp >= 0x80 {
      var r := CharUtf8(c);
      var q1 := cp / 64;
      assert cp == q1 * 64 + cp % 64;
      if cp < 0x800 {
        assert 2 <= q1 < 32;
        assert r == [0xC0 + q1, 0x80 + cp % 64];
      } else {
        var q2 := q1 / 64;
        assert q1 == q2 * 64 + q1 % 64;
        assert cp / 4096 == q2;
        if cp < 0x1_0000 {
          assert r == [0xE0 + q2, 0x80 + q1 % 64, 0x80 + cp % 64];
        } else {
          var q3 := q2 / 64;
          assert q2 == q3 * 64 + q2 % 64;
          assert cp / 262144 == q3;
          assert (cp / 4096) % 64 == q2 % 64;
          assert r == [0xF0 + q3, 0x80 + q2 % 64, 0x80 + q1 % 64, 0x80 + cp % 64];
        }
      }
    }
  }

  /** Distinct strings have distinct encodings: the lead byte of the first
      char fixes how many bytes it takes, and those bytes give the char. */
  lemma {:induction false} Utf8Injective(a: string, b: string)
    requires Utf8(a) == Utf8(b)
    ensures a == b
    decreases |a|
  {
    if |a| > 0 && |b| > 0 {
      var ca, cb := CharUtf8(a[0]), CharUtf8(b[0]);
      var e := Utf8(a);
      assert e == ca + Utf8(a[1..]) && e == cb + Utf8(b[1..]);
      CharUtf8Decodes(a[0]);
      CharUtf8Decodes(b[0]);
      assert ca[0] == e[0] == cb[0];
      assert |ca| == |cb|;
      assert ca == e[..|ca|] == cb;
      assert a[0] as int == b[0] as int;
      assert Utf8(a[1..]) == e[|ca|..] == Utf8(b[1..]);
      Utf8Injective(a[1..], b[1..]);
      assert a == [a[0]] + a[1..] && b == [b[0]] + b[1..];
    }
  }

  /** An ASCII string encodes to its own char codes, one byte each. */
  lemma {:induction false} Utf8Ascii(s: string)
    requires forall i :: 0 <= i < |s| ==> s[i] as int < 128
    ensures |Utf8(s)| == |s|
    ensures forall i :: 0 <= i < |s| ==> Utf8(s)[i] == s[i] as int
  {
    if |s| > 0 {
      Utf8Ascii(s[1..]);
      assert Utf8(s) == [s[0] as int] + Utf8(s[1..]);
    }
  }

  /** Integer.toString for a non-negative value: its decimal digits. */
  function NatToString(n: nat): (r: string)
    ensures |r| > 0
    ensures forall i :: 0 <= i < |r| ==> '0' <= r[i] <= '9'
  {
    var d := ['0' + (n % 10) as char];
    if n < 10 then d else NatToString(n / 10) + d
  }
}

=== FILE: treeset.dfy ===
/** java.util.TreeSet<String> as the signer uses it: strings kept strictly
    ascending under String.compareTo, one copy of each. */
module TreeSets {

  /** String.compareTo(a, b) < 0: the first differing char decides, and a
      proper prefix comes first. */
  predicate Less(a: string, b: string)
    decreases |a|
  {
    if |a| == 0 then |b| > 0
    else if |b| == 0 then false
    else if a[0] != b[0] then a[0] < b[0]
    else Less(a[1..], b[1..])
  }

  lemma {:induction false} LessIrreflexive(a: string)
    ensures !Less(a, a)
  {
    if |a| > 0 {
      LessIrreflexive(a[1..]);
    }
  }

  lemma {:induction false} LessTransitive(a: string, b: string, c: string)
    requires Less(a, b) && Less(b, c)
    ensures Less(a, c)
    decreases |a|
  {
    if |a| > 0 && |b| > 0 && |c| > 0 && a[0] == b[0] && b[0] == c[0] {
      LessTransitive(a[1..], b[1..], c[1..]);
    }
  }

  lemma {:induction false} LessTotal(a: string, b: string)
    requires a != b
    ensures Less(a, b) || Less(b, a)
    decreases |a|
  {
    if |a| > 0 && |b| > 0 && a[0] == b[0] {
      assert a == [a[0]] + a[1..] && b == [b[0]] + b[1..];
      LessTotal(a[1..], b[1..]);
    }
  }

  predicate StrictlySorted(s: seq<string>) {
    forall i, j :: 0 <= i < j < |s| ==> Less(s[i], s[j])
  }

  ghost predicate SameElements(a: seq<string>, b: seq<string>) {
    forall x :: x in a <==> x in b
  }

  /** TreeSet.add: put `x` in its place, or keep the set when already there. */
  function Insert(s: seq<string>, x: string): (r: seq<string>)
    ensures forall y :: y in r <==> y in s || y == x
    ensures StrictlySorted(s) ==> StrictlySorted(r)
  {
    if |s| == 0 then [x]
    else if x == s[0] then s
    else if Less(x, s[0]) then
      InsertFrontSorted(s, x);
      [x] + s
    else
      var r := [s[0]] + Insert(s[1..], x);
      InsertBehindSorted(s, x, Insert(s[1..], x));
      r
  }

  lemma InsertFrontSorted(s: seq<string>, x: string)
    requires |s| > 0 && Less(x, s[0])
    ensures StrictlySorted(s) ==> StrictlySorted([x] + s)
  {
    if StrictlySorted(s) {
      forall j | 0 < j < |s|
        ensures Less(x, s[j])
      {
        LessTransitive(x, s[0], s[j]);
      }
    }
  }

  lemma InsertBehindSorted(s: seq<string>, x: string, t: seq<string>)
    requires |s| > 0 && x != s[0] && !Less(x, s[0])
    requires forall y :: y in t <==> y in s[1..] || y == x
    requires StrictlySorted(s[1..]) ==> StrictlySorted(t)
    ensures StrictlySorted(s) ==> StrictlySorted([s[0]] + t)
  {
    if StrictlySorted(s) {
      LessTotal(x, s[0]);
      assert StrictlySorted(s[1..]);
      forall j | 0 <= j < |t|
        ensures Less(s[0], t[j])
      {
        assert t[j] in t;
        if t[j] != x {
          var k :| 0 <= k < |s[1..]| && s[1..][k] == t[j];
          assert s[k + 1] == t[j];
        }
      }
    }
  }

  /** Adding the given strings one by one, in order. */
  function AddAll(acc: seq<string>, xs: seq<string>): (r: seq<string>)
    ensures forall y :: y in r <==> y in acc || y in xs
    ensures StrictlySorted(acc) ==> StrictlySorted(r)
    decreases |xs|
  {
    if |xs| == 0 then acc
    else
      var r := AddAll(Insert(acc, xs[0]), xs[1..]);
      assert forall y :: y in xs <==> y == xs[0] || y in xs[1..];
      r
  }

  /** A strictly sorted sequence is determined by its elements. */
  lemma {:induction false} SortedUnique(a: seq<string>, b: seq<string>)
    requires StrictlySorted(a) && StrictlySorted(b) && SameElements(a, b)
    ensures a == b
  {
    if |a| > 0 {
      assert a[0] in b;
    }
    if |b| > 0 {
      assert b[0] in a;
    }
    if |a| > 0 && |b| > 0 {
      if a[0] != b[0] {
        assert b[0] in a;
        var k :| 0 <= k < |a| && a[k] == b[0];
        assert a[0] in b;
        var j :| 0 <= j < |b| && b[j] == a[0];
        LessTransitive(a[0], b[0], a[0]);
        LessIrreflexive(a[0]);
      }
      forall x | x in a[1..]
        ensures x in b[1..]
      {
        var k :| 1 <= k < |a| && a[k] == x;
        LessIrreflexive(a[0]);
        assert x in b;
        var j :| 0 <= j < |b| && b[j] == x;
        assert j != 0;
      }
      forall x | x in b[1..]
        ensures x in a[1..]
      {
        var k :| 1 <= k < |b| && b[k] == x;
        LessIrreflexive(b[0]);
        assert x in a;
        var j :| 0 <= j < |a| && a[j] == x;
        assert j != 0;
      }
      SortedUnique(a[1..], b[1..]);
      assert a == [a[0]] + a[1..] && b == [b[0]] + b[1..];
    }
  }
}

=== FILE: util.dfy ===
/** Util: the percent-encoder every canonical form is built from, the
    separator join, the identifier check and the general error object. */
module Util {
  import opened Wrappers
  import opened Strings
  import Json

  /** The unreserved set of section 2.3 of RFC 3986: ALPHA, DIGIT, '-', '.', '_', '~'. */
  predicate Unreserved(b: byte) {
    || ('a' as int <= b <= 'z' as int)
    || ('A' as int <= b <= 'Z' as int)
    || ('0' as int <= b <= '9' as int)
    || b == '-' as int || b == '.' as int || b == '_' as int || b == '~' as int
  }

  const Slash: byte := '/' as int

  const UpperHex := "0123456789ABCDEF"

  /** A byte copied unchanged: unreserved, or '/' when slashes are kept. */
  predicate Kept(b: byte, encodeSlash: bool) {
    Unreserved(b) || (!encodeSlash && b == Slash)
  }

  /** One byte in the encoded output: itself, or '%' and two uppercase hex
      digits of its value (section 2.1 of RFC 3986). */
  function EncodeByte(b: byte, encodeSlash: bool): string {
    if Kept(b, encodeSlash) then [b as char] else ['%', UpperHex[b / 16], UpperHex[b % 16]]
  }

  /** A char the encoder can emit. */
  predicate EncodedChar(c: char, encodeSlash: bool) {
    || ('a' <= c <= 'z') || ('A' <= c <= 'Z') || ('0' <= c <= '9')
    || c == '-' || c == '.' || c == '_' || c == '~' || c == '%'
    || (!encodeSlash && c == '/')
  }

  /** Number of bytes copied unchanged. */
  function CountKept(bs: seq<byte>, encodeSlash: bool): (n: nat)
    ensures n <= |bs|
  {
    if |bs| == 0 then 0 else (if Kept(bs[0], encodeSlash) then 1 else 0) + CountKept(bs[1..], encodeSlash)
  }

  /** The per-byte encoding of a whole byte string. */
  function EncodeBytes(bs: seq<byte>, encodeSlash: bool): (r: string)
    ensures |r| == CountKept(bs, encodeSlash) + 3 * (|bs| - CountKept(bs, encodeSlash))
    ensures forall i :: 0 <= i < |r| ==> EncodedChar(r[i], encodeSlash)
  {
    if |bs| == 0 then ""
    else
      var head := EncodeByte(bs[0], encodeSlash);
      var tail := EncodeBytes(bs[1..], encodeSlash);
      assert forall i :: 0 <= i < |head| ==> EncodedChar(head[i], encodeSlash);
      head + tail
  }

  /** String.replace("%2F", "/"): left to right, non-overlapping. */
  function RestoreSlashes(s: string): string
    decreases |s|
  {
    if |s| == 0 then ""
    else if StartsWith(s, "%2F") then "/" + RestoreSlashes(s[3..])
    else [s[0]] + RestoreSlashes(s[1..])
  }

  /** Util.uriEncode as written: percent-encode the UTF-8 bytes of `value`
      with every reserved byte encoded, then, when slashes are to be kept,
      replace each "%2F" of the result by "/". */
  function UriEncode(value: string, encodeSlash: bool): (r: string)
    ensures r == EncodeBytes(Utf8(value), encodeSlash)
  {
    var encoded := EncodeBytes(Utf8(value), true);
    if encodeSlash then encoded
    else
      RestoreSlashesOfEncoding(Utf8(value));
      RestoreSlashes(encoded)
  }

  lemma RestoreSlashesHead(s: string)
    requires |s| > 0 && s[0] != '%'
    ensures RestoreSlashes(s) == [s[0]] + RestoreSlashes(s[1..])
  {
  }

  /** Restoring slashes in one encoded byte followed by anything encoded. */
  lemma RestoreSlashesOfByte(b: byte, rest: string)
    ensures RestoreSlashes(EncodeByte(b, true) + rest) == EncodeByte(b, false) + RestoreSlashes(rest)
  {
    var s := EncodeByte(b, true) + rest;
    if Unreserved(b) {
      RestoreSlashesHead(s);
      assert s[1..] == rest;
    } else if b == Slash {
      assert s[..3] == "%2F";
      assert s[3..] == rest;
    } else {
      var hi := UpperHex[b / 16];
      var lo := UpperHex[b % 16];
      assert !(hi == '2' && lo == 'F');
      RestoreSlashesOfTriple(hi, lo, rest);
    }
  }

  lemma RestoreSlashesOfTriple(hi: char, lo: char, rest: string)
    requires hi != '%' && lo != '%' && !(hi == '2' && lo == 'F')
    ensures RestoreSlashes(['%', hi, lo] + rest) == ['%', hi, lo] + RestoreSlashes(rest)
  {
    var s := ['%', hi, lo] + rest;
    assert !StartsWith(s, "%2F");
    var s1 := [hi, lo] + rest;
    assert s[1..] == s1;
    RestoreSlashesHead(s1);
    assert s1[1..] == [lo] + rest;
    RestoreSlashesHead([lo] + rest);
    assert ([lo] + rest)[1..] == rest;
  }

  /** Replacing "%2F" after encoding everything is the same as never encoding
      '/': a '%' in the encoder's output always starts a triple. */
  lemma {:induction false} RestoreSlashesOfEncoding(bs: seq<byte>)
    ensures RestoreSlashes(EncodeBytes(bs, true)) == EncodeBytes(bs, false)
  {
    if |bs| > 0 {
      RestoreSlashesOfEncoding(bs[1..]);
      RestoreSlashesOfByte(bs[0], EncodeBytes(bs[1..], true));
    }
  }

  /** Number of UTF-8 bytes of `value` in the unreserved set. */
  function CountUnreserved(bs: seq<byte>): (n: nat)
    ensures n <= |bs|
  {
    if |bs| == 0 then 0 else (if Unreserved(bs[0]) then 1 else 0) + CountUnreserved(bs[1..])
  }

  lemma {:induction false} CountKeptWithSlashEncoded(bs: seq<byte>)
    ensures CountKept(bs, true) == CountUnreserved(bs)
  {
    if |bs| > 0 {
      CountKeptWithSlashEncoded(bs[1..]);
    }
  }

  /** With '/' encoded, every unreserved byte costs one char and every other
      byte three. */
  lemma UriEncodeLength(value: string)
    ensures |UriEncode(value, true)| == CountUnreserved(Utf8(value)) + 3 * (|Utf8(value)| - CountUnreserved(Utf8(value)))
  {
    CountKeptWithSlashEncoded(Utf8(value));
  }

  /** The flag only decides the fate of '/': without a '/' byte both modes agree. */
  lemma {:induction false} EncodeSlashOnlyAffectsSlash(bs: seq<byte>)
    requires Slash !in bs
    ensures EncodeBytes(bs, true) == EncodeBytes(bs, false)
  {
    if |bs| > 0 {
      assert bs[0] != Slash;
      EncodeSlashOnlyAffectsSlash(bs[1..]);
    }
  }

  /** A '/' is kept literally with the flag off and becomes "%2F" with it on. */
  lemma SlashEncoding()
    ensures UriEncode("/", false) == "/"
    ensures UriEncode("/", true) == "%2F"
  {
    assert Utf8("/") == [Slash];
    assert EncodeBytes([Slash], false) == "/";
    assert EncodeBytes([Slash], true) == "%2F";
  }

  predicate UnreservedChar(c: char) {
    c as int < 256 && Unreserved(c as int)
  }

  /** A string of unreserved chars only is a fixed point of uriEncode, whatever the flag. */
  lemma {:induction false} UnreservedFixedPoint(value: string, encodeSlash: bool)
    requires forall i :: 0 <= i < |value| ==> UnreservedChar(value[i])
    ensures UriEncode(value, encodeSlash) == value
  {
    if |value| > 0 {
      UnreservedFixedPoint(value[1..], encodeSlash);
      assert Utf8(value) == [value[0] as int] + Utf8(value[1..]);
      assert Utf8(value)[1..] == Utf8(value[1..]);
    }
  }

  function UpperHexValue(c: char): Option<nat> {
    if '0' <= c <= '9' then Some(c as int - '0' as int)
    else if 'A' <= c <= 'F' then Some(c as int - 'A' as int + 10)
    else None
  }

  /** Inverse of the encoder: "%XX" with uppercase hex gives one byte, any
      other ASCII char gives its own code. */
  function PercentDecode(s: string): Option<seq<byte>>
    decreases |s|
  {
    if |s| == 0 then Some([])
    else if s[0] == '%' then
      if |s| >= 3 && UpperHexValue(s[1]).Some? && UpperHexValue(s[2]).Some? then
        match PercentDecode(s[3..])
        case None => None
        case Some(rest) => Some([16 * UpperHexValue(s[1]).value + UpperHexValue(s[2]).value] + rest)
      else None
    else if s[0] as int < 128 then
      match PercentDecode(s[1..])
      case None => None
      case Some(rest) => Some([s[0] as int] + rest)
    else None
  }

  lemma UpperHexDigit(n: nat)
    requires n < 16
    ensures UpperHexValue(UpperHex[n]) == Some(n)
  {
  }

  /** Decoding one encoded byte followed by anything. */
  lemma DecodeByte(b: byte, encodeSlash: bool, rest: string)
    ensures PercentDecode(EncodeByte(b, encodeSlash) + rest)
         == (match PercentDecode(rest) case None => None case Some(t) => Some([b] + t))
  {
    var s := EncodeByte(b, encodeSlash) + rest;
    if Kept(b, encodeSlash) {
      assert s[1..] == rest;
    } else {
      UpperHexDigit(b / 16);
      UpperHexDigit(b % 16);
      assert s[3..] == rest;
    }
  }

  /** Decoding the encoder's output gives back the bytes, in either mode. */
  lemma {:induction false} EncodeBytesRoundTrip(bs: seq<byte>, encodeSlash: bool)
    ensures PercentDecode(EncodeBytes(bs, encodeSlash)) == Some(bs)
  {
    if |bs| > 0 {
      EncodeBytesRoundTrip(bs[1..], encodeSlash);
      DecodeByte(bs[0], encodeSlash, EncodeBytes(bs[1..], encodeSlash));
      assert bs == [bs[0]] + bs[1..];
    }
  }

  /** uriEncode loses nothing: the UTF-8 bytes of the input are recoverable. */
  lemma UriEncodeRoundTrip(value: string, encodeSlash: bool)
    ensures PercentDecode(UriEncode(value, encodeSlash)) == Some(Utf8(value))
  {
    EncodeBytesRoundTrip(Utf8(value), encodeSlash);
  }

  /** Hence uriEncode is injective on UTF-8 byte strings. */
  lemma UriEncodeInjective(a: string, b: string, encodeSlash: bool)
    requires UriEncode(a, encodeSlash) == UriEncode(b, encodeSlash)
    ensures Utf8(a) == Utf8(b)
    ensures a == b
  {
    UriEncodeRoundTrip(a, encodeSlash);
    UriEncodeRoundTrip(b, encodeSlash);
    Utf8Injective(a, b);
  }

  /** Util.mkString as written: append every item followed by the separator,
      then delete the last char; an empty iterator gives "". */
  method MkString(items: seq<string>, sep: char) returns (r: string)
    ensures r == Join(items, sep)
    ensures |items| > 0 ==> |r| == SumLengths(items) + |items| - 1
  {
    if |items| == 0 {
      return "";
    }
    var builder := "";
    var i := 0;
    while i < |items|
      invariant 0 <= i <= |items|
      invariant i == 0 ==> builder == ""
      invariant i > 0 ==> builder == Join(items[..i], sep) + [sep]
    {
      if i > 0 {
        JoinSnoc(items[..i], items[i], sep);
      }
      assert items[..i + 1] == items[..i] + [items[i]];
      builder := builder + items[i] + [sep];
      i := i + 1;
    }
    assert items[..i] == items;
    r := builder[..|builder| - 1];
    JoinLength(items, sep);
  }

  predicate LiteralChar(c: char) {
    ('0' <= c <= '9') || ('a' <= c <= 'z') || ('A' <= c <= 'Z') || c == '_'
  }

  /** Util.isLiteral: the whole input matches [0-9a-zA-Z_]*. */
  function IsLiteral(input: string): (r: bool)
    ensures r <==> forall i :: 0 <= i < |input| ==> LiteralChar(input[i])
  {
    if |input| == 0 then true
    else if !LiteralChar(input[0]) then false
    else
      var r := IsLiteral(input[1..]);
      assert forall i :: 1 <= i < |input| ==> input[i] == input[1..][i - 1];
      r
  }

  /** Util.getGeneralError: an object with exactly error_code and error_msg. */
  function GeneralError(errorCode: int, errorMsg: string): (r: Json.JsonObject)
    ensures r.Keys == {"error_code", "error_msg"}
    ensures r["error_code"] == Json.JNum(errorCode) && r["error_msg"] == Json.JStr(errorMsg)
  {
    map["error_code" := Json.JNum(errorCode), "error_msg" := Json.JStr(errorMsg)]
  }
}

=== FILE: wrappers.dfy ===
/** Failure-carrying datatypes used throughout the model: `Option` stands for
    a Java reference that may be null, `Result` for a call that may throw. */
module Wrappers {

  datatype Option<+T> = None | Some(value: T) {

    /** The wrapped value, or `default` for None. */
    function GetOr(default: T): T {
      match this
      case Some(v) => v
      case None => default
    }
  }

  datatype Result<+R, +E> = Success(value: R) | Failure(error: E)
}
